=== FILE: README.md ===
# Email dispatch gate, in Dafny

This project models the part of the report-mailing scripts that decides whether a
row of the email list may be mailed. A row names recipients, a subject and
attachment workbooks. Every decision is also recorded in the `events` audit table.
The gate exists in three revisions, and each has its own module:

- `Gate` models `Scripts/send_reports_configured.py`, the current DB-backed runner.
  - It checks receiver, then subject.
  - Unless `--force-resend` is set, it checks that every attachment exists and that the file's
    latest successful refresh is exactly on the email run date. Optionally, some successful
    refresh of the file on the run date must have been made by the "email" method.
  - It then asks whether the same recipients, subject, run date, batch and path were already
    mailed OK.
  - Once the worker has connected, the row's outcome is written back as an `Email` event. A failed
    connection writes nothing, and neither does a worker that raises (see below); both count as
    FAIL. `main` counts OK/FAIL/SKIP, exports the run's events and exits 0 exactly when nothing
    failed.
- `Lenient` models `Scripts/temp.py`.
  - It connects to the database once.
  - It asks the duplicate question before freshness.
  - Both questions accept the run date or the day before, and the duplicate check ignores batch
    and path.
  - An exception in the loop body is not caught: it ends `main` with exit 1 and no export.
- `CsvGate` models `Scripts/Old/send_reports_configured.py`.
  - The run log is a CSV file, read once into a snapshot before the loop.
  - Only rows marked "X" in the Send column are considered.
  - Every check is against the run date exactly.
  - Each log row is appended as its row is decided. An exception in the loop body ends `main`
    with exit 1, and the rows appended before it stay in the log.

The revisions share modules:

- `Text`: Python's `strip`, `split`, `join`, `lower`/`upper` and `int` on text.
- `Addresses`: `normalize_addr_list` and `split_attachments`.
- `Conn`: `parse_conn_env`.
- `Audit`: the event row and `db_write_email_event`.
- `Store`: the SQL queries of the current revision, as functions over the event sequence.
- `Export`: `export_email_csv`.
- `Dispatch`: the email-list row, the header refusal, the freshness loop, the problem messages and the summary.

The world outside the scripts becomes parameters:

- `files`: the set of paths that exist.
- `Env.send`: the SMTP outcome per row, either `Delivered` or `SendError(text)`.
- `Env.serverError`: whether the database server refuses a connection.
- `Env.timestamp`: the clock.
- `credentialsSet` and `columns`: the configuration and the List sheet's header.

Days are day ordinals, so "the day before `d`" is `d - 1`.

In these places the model keeps the code's behaviour:

- Recipients are compared as normalised text, so the same addresses in another order do not
  match (`Addresses.NormalizeOrderSensitive`).
- The duplicate window is as each revision writes it:
  - the current revision: run date, batch and file path;
  - `temp.py`: the run date or the day before;
  - the CSV revision: today.
- The `FALLBACK_HOURS` setting is passed along but never read.
- The CSV revision strips the candidate subject but not the stored one.

Some behaviour of the current revision is kept exactly as written:

- The duplicate query compares the path of the LAST attachment with the stored `file_path`.
  That column holds all the paths joined with ";". So a single-attachment row is skipped on
  re-run (`Gate.SecondRunSkips`), while a multi-attachment row is mailed again every run
  (`Gate.MultiAttachmentResent`).
- A row without attachments and without force reaches the duplicate query with `fp_str`
  unbound. The worker raises, which `main` counts as FAIL with no event written.
- A forced row naming a missing file raises when the file is opened.

In all three revisions, the message is built with `EmailMessage()` under `policy.default`. That
policy refuses a header value that splits into more than one line under `str.splitlines`. The
To, Cc and Subject values are assigned before the dry-run test, so an eligible row whose
recipients, Cc list or subject hold a line break raises even on a dry run. The current revision
counts the raising worker as FAIL and writes nothing. The other two revisions abort the run at
that row.

## Model

| member | source | states |
|---|---|---|
| Text.TrimSpec | Scripts/send_reports_configured.py:141-144 | a stripped cell is a contiguous slice of the text with no whitespace at either end |
| Text.JoinSplit | Scripts/send_reports_configured.py:284 | joining the pieces of a split with the same separator gives the text back |
| Text.SplitJoin | Scripts/send_reports_configured.py:128-133 | splitting a join of separator-free pieces gives the pieces back |
| Text.ParseIntText | Scripts/send_reports_configured.py:184 | the integer parser reads every integer's decimal text back to that integer |
| Text.LowerTrimCommutes | Scripts/send_reports_configured.py:182 | lower-casing and stripping a key can be done in either order |
| Addresses.AddrEntries | Scripts/send_reports_configured.py:120-126 | every address a cell yields is non-blank, stripped and free of "," and ";" |
| Addresses.NormalizeCanonical | Scripts/send_reports_configured.py:120-126 | addresses separated by ",", ";", ", " or "; " normalise to their ", "-join, in order, duplicates kept, and parse back to the same list |
| Addresses.NormalizeIdempotent | Scripts/send_reports_configured.py:120-126 | normalising a normalised list changes nothing |
| Addresses.NormalizeBlank | Scripts/send_reports_configured.py:120-126 | a cell normalises to "" exactly when it holds no address |
| Addresses.NormalizeOrderSensitive | Scripts/send_reports_configured.py:120-126 | two distinct addresses in swapped order, with any separators, normalise to texts that differ even after lower-casing |
| Addresses.SplitAttachments | Scripts/send_reports_configured.py:128-133 | every attachment path is non-blank, stripped and free of ";" |
| Addresses.AttachmentsRoundTrip | Scripts/send_reports_configured.py:284 | splitting the stored ";"-joined `file_path` gives back the row's attachment paths in order |
| Conn.FindEq | Scripts/send_reports_configured.py:180-181 | a segment binds only if it contains "=", and the split is at the first "=" |
| Conn.BindIsLastBinding | Scripts/send_reports_configured.py:177-182 | the dictionary answers every key with the value of the last non-blank segment binding it |
| Conn.ParseConnEnv | Scripts/send_reports_configured.py:171-193 | each field is the last binding of its key in the raw text or the default; Uid beats User and Pwd beats Password, an empty value falling through; SSL only for a mode other than none/disabled; a non-integer Port fails |
| Conn.ConnDefaults | Scripts/send_reports_configured.py:183-193 | an unset variable gives 127.0.0.1:3306, database reportlogs, user root, empty password, no SSL |
| Conn.BindingKeyCaseInsensitive | Scripts/send_reports_configured.py:182 | keys that differ only in case bind the same dictionary entry |
| Store.LatestRefreshDate | Scripts/send_reports_configured.py:199-215 | there is no date exactly when the file has no successful refresh; otherwise the date is one refresh's run date and no refresh is later |
| Store.LatestIsDay | Scripts/send_reports_configured.py:199-215 | the latest refresh is on day d if and only if there is a refresh on d and none on a later day |
| Store.AppendNonRefresh | Scripts/send_reports_configured.py:199-215 | appending rows of other stages never moves a file's latest refresh date |
| Store.AppendNonRefreshMethod | Scripts/send_reports_configured.py:233-248 | appending rows of other stages never changes whether a day's refresh was by the email method |
| Audit.EmailEvent | Scripts/send_reports_configured.py:272-291 | read back with `split_attachments`, the `file_path` of the row written for a list of attachment paths gives those paths again, in order |
| Export.SortRows | Scripts/send_reports_configured.py:310 | the rows are a permutation of the input, ordered by timestamp then id |
| Export.OfRun | Scripts/send_reports_configured.py:309 | each event occurs in the selection as often as in the table when it belongs to the run, and never otherwise |
| Export.ExportEvents | Scripts/send_reports_configured.py:293-312 | each event of the run is exported as often as it occurs in the table, no other event is, and the events are in (timestamp, id) order |
| Export.ExportTable | Scripts/send_reports_configured.py:318-324 | the file is the fixed header, then line `i` is the export row of the run's `i`-th event in (timestamp, id) order, twelve columns each |
| Export.ExportIgnoresOtherRuns | Scripts/send_reports_configured.py:309-310 | rows appended by other runs leave a run's export unchanged |
| Export.ExportRow | Scripts/send_reports_configured.py:318-324 | twelve cells; the timestamp and run-date cells parse back to the numbers they came from, and the duration cell is empty exactly for a NULL duration and otherwise parses back to it |
| Dispatch.TrimmedSpansLines | Scripts/send_reports_configured.py:438-443 | a stripped header value splits into more than one line exactly when it contains a line break character |
| Dispatch.HeadersAcceptedIff | Scripts/send_reports_configured.py:438-443 | the message refuses the row's headers exactly when the normalised recipients, the normalised Cc list or the subject contain a line break character |
| Dispatch.ProblemsBy | Scripts/send_reports_configured.py:385-409 | the freshness loop every revision runs: the problems name exactly the attachments the freshness predicate rejects, in order, are empty exactly when it accepts all of them, and each is the problem the attachment's own check reports |
| Gate.CheckAttachment | Scripts/send_reports_configured.py:386-407 | no problem exactly when the attachment exists, its latest refresh is on the run date, and (if required) a refresh that day was by the email method. Otherwise, each in both directions: missing file; no refresh in the database; not refreshed for the run date, carrying the latest refresh day; method not email |
| Gate.Problems | Scripts/send_reports_configured.py:385-409 | the problems name exactly the stale attachments, in order, and are empty exactly when all attachments are fresh; each is the problem the attachment's own check reports, so its kind is fixed as well as its path |
| Gate.FirstMissing | Scripts/send_reports_configured.py:446-450 | opening the attachments fails exactly when one of them does not exist |
| Gate.Decide | Scripts/send_reports_configured.py:359-435 | both directions for each verdict: missing receiver, missing subject, stale, duplicate of the last attachment's OK row, unbound path (no attachment), eligible (forced, or fresh, non-empty and not yet sent); a stale verdict carries the stale attachments' paths in order, each with the problem its check reports |
| Gate.Work | Scripts/send_reports_configured.py:328-503 | connection failure: FAIL, nothing written. Otherwise exactly one Email event with the run's id, batch and date, unless the worker raises. It raises exactly for an unbound path or an eligible row whose To, Cc or Subject value spans lines or that names a missing file; the header refusal comes first and raises the header error. A row is sent exactly when eligible and not a dry run. OK exactly when sent and delivered, with "OK"/"OK (FORCED)" and an event recording the delivery. Each refusal has its status and message; a dry run of an eligible row whose headers are accepted and whose files open is SKIP "DRYRUN"; an already-sent row is SKIP with the run date and batch in the stored error; every other written row stores the returned message |
| Gate.Step | Scripts/send_reports_configured.py:328-503 | a worker appends at most one row, and only an Email row |
| Gate.RunBatch | Scripts/send_reports_configured.py:578-619 | one outcome per row; each outcome is counted once under its status, a raised worker as FAIL; the table only grows, by Email rows, at most one per row; the final table is the starting table followed by the rows the outcomes wrote, in row order |
| Gate.RunBatchSees | Scripts/send_reports_configured.py:578-590 | row `k`'s worker runs with its own world against the table as the workers of the rows before it left it |
| Gate.Main | Scripts/send_reports_configured.py:559-632 | missing credentials or columns: exit 2 with the table untouched; otherwise exit 0 exactly when no row failed, else 1, every row counted, and the export of the run's rows; the summary and final table are those of the batch run |
| Gate.FreshAppend | Scripts/send_reports_configured.py:382-408 | rows of stages other than Refresh never change whether an attachment is fresh |
| Gate.FreshAfterDelivery | Scripts/send_reports_configured.py:382-408 | after an Email row and any non-refresh rows, fresh attachments stay fresh |
| Gate.SecondRunSkips | Scripts/send_reports_configured.py:420-431 | a delivered single-attachment row is skipped as already emailed when the run is repeated |
| Gate.JoinedPathNeverMatches | Scripts/send_reports_configured.py:250-270 | the OK row of a multi-attachment delivery never matches that row's duplicate query |
| Gate.MultiAttachmentResent | Scripts/send_reports_configured.py:420-431 | a delivered multi-attachment row is eligible again on a repeated run |
| Lenient.CheckAttachment | Scripts/temp.py:349-359 | no problem exactly when the attachment exists, was refreshed on the run date or the day before, and (if required) by the email method in that window. Otherwise, each in both directions: missing file; no refresh in the window; method not email |
| Lenient.Problems | Scripts/temp.py:348-361 | the problems name exactly the stale attachments, in order, and are empty exactly when all are fresh; each is the problem the attachment's own check reports |
| Lenient.Decide | Scripts/temp.py:330-364 | both directions for each verdict; the duplicate check comes before freshness; a row without attachments is eligible; a stale verdict carries each stale attachment's problem as its check reports it |
| Lenient.Step | Scripts/temp.py:319-400 | the pass raises exactly for an eligible row whose To, Cc or Subject value spans lines, with the header error. Otherwise the row writes one Email event. Sent exactly when eligible and not a dry run; OK exactly when sent and delivered, with an empty error. Each refusal has its status and message; a dry run of an eligible row with accepted headers is SKIP "DRYRUN" |
| Lenient.Tally | Scripts/temp.py:316-400 | every row is counted once |
| Lenient.TallyCounts | Scripts/temp.py:316-400 | each counter is the number of rows that finished with its status |
| Lenient.Loop | Scripts/temp.py:318-400 | the loop stops early exactly when an exception ends it; otherwise there is one result per row, each with an Email event |
| Lenient.LoopSees | Scripts/temp.py:318-400 | each row the loop finished was finished by the loop body run against the table as the earlier rows of the run left it |
| Lenient.LoopAborts | Scripts/temp.py:318-372 | a run that ends early ends at the first row whose loop body raises, and carries that exception |
| Lenient.Main | Scripts/temp.py:263-415 | missing credentials, missing columns or a failed connection: exit 2, table untouched. Otherwise the final table is the starting one followed by the finished rows' events in row order, and the summary is their tally. A run that completes has one Email row per row, exits 0 exactly when none failed, and exports the run; a run an exception ends exits 1 with no export |
| Lenient.SentSuppressesLater | Scripts/temp.py:182-196 | a delivered row makes any row with the same recipients and subject, ignoring case, a duplicate on that day and the next |
| Lenient.LaterDuplicateSkipped | Scripts/temp.py:340-345 | within one run, a later row repeating a delivered row's recipients and subject is skipped |
| Lenient.StrictImpliesLenient | Scripts/temp.py:147-180 | a file fresh for the current revision is fresh for this one |
| Lenient.LenientAcceptsYesterday | Scripts/temp.py:147-164 | a file refreshed only the day before is fresh here but not for the current revision |
| CsvGate.CheckAttachment | Scripts/Old/send_reports_configured.py:363-371 | no problem exactly when the attachment exists and has a refresh today (by the email method if required). Otherwise, each in both directions: missing file; no refresh today; method not email |
| CsvGate.Problems | Scripts/Old/send_reports_configured.py:362-373 | the problems name exactly the stale attachments, in order; each is the problem the attachment's own check reports |
| CsvGate.Decide | Scripts/Old/send_reports_configured.py:287-373 | both directions for each verdict: unmarked, missing receiver, missing subject, already emailed today, stale, eligible; a stale verdict carries each stale attachment's problem as its check reports it |
| CsvGate.Step | Scripts/Old/send_reports_configured.py:287-503 | unmarked rows log nothing. The pass raises exactly for an eligible row whose To, Cc or Subject value spans lines, with the header error. The path is blank exactly for missing fields, duplicates or no attachments, and is the ";"-join otherwise. Sent exactly when eligible and not a dry run; OK exactly when delivered. Each refusal has its status and message; a dry run of an eligible row with accepted headers logs SKIP "DRYRUN" |
| CsvGate.Loop | Scripts/Old/send_reports_configured.py:276-287 | every row reached is decided against the same snapshot loaded before the loop; the loop runs to the end unless a pass raises, and then stops right after that pass |
| CsvGate.Appended | Scripts/Old/send_reports_configured.py:287-503 | the loop appends only Email rows, one per logged result, and each logged result's row sits after the rows of the logged results before it |
| CsvGate.LogRowFound | Scripts/Old/send_reports_configured.py:177-190 | a log row written for a stripped subject is found by a later duplicate check on the same day for its recipients and subject exactly when its status is OK |
| CsvGate.AppendedCount | Scripts/Old/send_reports_configured.py:287-290 | a loop that runs to the end appends exactly one row per marked row |
| CsvGate.Main | Scripts/Old/send_reports_configured.py:255-505 | missing credentials or columns: exit 2 with the log untouched. Otherwise the log is the old log followed by the loop's appended rows, all Email rows. The exit code is 1 exactly when an exception ended the loop and 0 otherwise, whatever failed; a loop that runs to the end adds one row per marked row |
| CsvGate.LoggedDeliverySkipsRerun | Scripts/Old/send_reports_configured.py:177-191 | a later run whose snapshot holds a delivery's log row skips that row as already emailed today |
| CsvGate.RepeatedRowSentTwice | Scripts/Old/send_reports_configured.py:276-287 | a row listed twice in one run is delivered twice, since both copies see the same snapshot |

## Left out

- SMTP, the greeting, the body text and the MIME parts: the send is a per-row outcome
  parameter (`Env.send`). Of the message building, only the To, Cc and Subject header refusal is
  modelled. The From value is a fixed setting taken to hold no line break.
- Gate.Work, Lenient.Step, CsvGate.Step: other ways building the message can raise are not
  modelled. These are a line break in an attachment's file name, which becomes a
  Content-Disposition parameter, and an address the header parser rejects for another reason.
- Excel and CSV reading and writing, and CSV quoting: rows arrive as a sequence of `Row`s,
  the run log and the table as sequences of `Event`s, and the export as a sequence of lines of cells.
- `Path.exists` is the `files` set. `str(Path(p))` is taken to be `p`, so path normalisation by
  the operating system is not modelled.
- Process-pool concurrency: workers run one after the other, in row order, each seeing the rows
  earlier ones wrote. This is the configured default of one worker. With more workers, results
  arrive out of order and workers may race on the duplicate query; neither is modelled.
- `time.sleep`, `write_log` and console output, `conn.close`, and the export's own reconnection
  and its failure warning: `Gate.Main` always produces the export.
- The MySQL collation: `LOWER(...) COLLATE utf8mb4_unicode_ci` is ASCII lower-casing, and
  `stage='Refresh'`/`status='OK'` are exact comparisons.
- Unicode case mapping: `lower`, `upper` and `casefold` act on ASCII letters only. `strip` removes
  exactly the characters Python's `str.isspace` accepts.
- CsvGate.Config.today: the CSV revision reads `date.today()` once for the RunDate it logs
  (Scripts/Old/send_reports_configured.py:278) and again inside each snapshot query (lines 151, 162
  and 178). The model uses one day for both, so a run that crosses midnight is not modelled: in the
  code, later rows are checked against the next day but logged under the first.
- Dates: parsing `--email-date` (an invalid date exits 2), `date.today()`, `CONVERT_TZ`,
  `DATE_FORMAT` and the run id's text are outside the model. A date renders as its day ordinal
  in decimal, and timestamps are natural numbers.
- Text.ParseIntText: the parser accepts an optional "+" or "-" sign and ASCII decimal digits;
  Python's `int` also accepts "_" separators, non-ASCII digits and surrounding whitespace.
- Export.ExportRow: the timestamp and run-date columns hold the numbers in decimal, not the
  formatted local time and ISO date.
- Database query and insert failures once connected: the model assumes every query and insert
  succeeds. In the current revision and in `temp.py`, a failed "OK" insert after a delivered mail
  is caught like a send error, so a "FAIL" row is written and the row counts as FAIL
  (Scripts/send_reports_configured.py:471-497, Scripts/temp.py:394-400). Any other failing query or
  insert raises: the current revision's worker then counts as FAIL with nothing written, and
  `temp.py`'s `main` aborts without an export.
- The CSV revision's Body sheet and `{VARIABLE1}` substitution: they shape the message only.
- Scripts/sync_and_cleanup.py is not part of this model.
- `FALLBACK_HOURS` is modelled as `Gate.Config.fallbackHours` and is read by nothing, as in the code.

=== FILE: addresses.dfy ===
/**
 * The two cell parsers every revision of the email runner shares
 * (Scripts/send_reports_configured.py, Scripts/temp.py and
 * Scripts/Old/send_reports_configured.py define them identically):
 * `normalize_addr_list` for the Receiver/CC/BCC cells and
 * `split_attachments` for the attachment cell.
 */
module Addresses {
  import opened Text

  /** The fields of a split, each stripped, blank ones dropped, order and duplicates kept. */
  function Clean(parts: seq<string>): (r: seq<string>)
    ensures |r| <= |parts|
    ensures forall i :: 0 <= i < |r| ==> r[i] != "" && Trimmed(r[i])
  {
    if |parts| == 0 then []
    else
      var t := Trim(parts[0]);
      (if t == "" then [] else [t]) + Clean(parts[1..])
  }

  lemma {:induction false} CleanKeepsAbsent(parts: seq<string>, c: char)
    requires forall i :: 0 <= i < |parts| ==> c !in parts[i]
    ensures forall i :: 0 <= i < |Clean(parts)| ==> c !in Clean(parts)[i]
  {
    if |parts| > 0 {
      TrimSubset(parts[0], c);
      CleanKeepsAbsent(parts[1..], c);
    }
  }

  lemma {:induction false} CleanClean(parts: seq<string>)
    requires forall i :: 0 <= i < |parts| ==> parts[i] != "" && Trimmed(parts[i])
    ensures Clean(parts) == parts
  {
    if |parts| > 0 {
      TrimTrimmed(parts[0]);
      assert Trim(parts[0]) != "";
      CleanClean(parts[1..]);
      assert Clean(parts) == [parts[0]] + Clean(parts[1..]);
      assert [parts[0]] + parts[1..] == parts;
    }
  }

  /** One address as `normalize_addr_list` emits it. */
  predicate IsAddr(e: string) {
    e != "" && Trimmed(e) && ',' !in e && ';' !in e
  }

  /** One attachment path as `split_attachments` emits it. */
  predicate IsAttachment(p: string) {
    p != "" && Trimmed(p) && ';' !in p
  }

  /** The addresses of a Receiver/CC/BCC cell: `;` read as `,`, fields stripped, blanks dropped. */
  function AddrEntries(value: string): (r: seq<string>)
    ensures forall i :: 0 <= i < |r| ==> IsAddr(r[i])
  {
    var v := ReplaceChar(Trim(value), ';', ',');
    SplitKeepsAbsent(v, ',', ';');
    CleanKeepsAbsent(Split(v, ','), ',');
    CleanKeepsAbsent(Split(v, ','), ';');
    Clean(Split(v, ','))
  }

  /** `normalize_addr_list`: the cell's addresses joined with ", ", or "" for a blank cell. */
  function NormalizeAddrList(value: string): (r: string)
  {
    var v := Trim(value);
    if v == "" then ""
    else Join(Clean(Split(ReplaceChar(v, ';', ','), ',')), ", ")
  }

  /** The normalized text is the canonical join of the cell's addresses. */
  lemma NormalizeIsJoin(value: string)
    ensures NormalizeAddrList(value) == Join(AddrEntries(value), ", ")
  {
  }

  /** Leading whitespace in front of a field does not change the cleaned fields. */
  lemma CleanSplitPad(pad: string, t: string)
    requires AllSpace(pad) && ',' !in pad
    ensures Clean(Split(pad + t, ',')) == Clean(Split(t, ','))
  {
    var r := Split(t, ',');
    SplitPrefix(pad, t, ',');
    TrimSpacePrefix(pad, r[0]);
    assert [r[0]] + r[1..] == r;
  }

  lemma {:induction false} CleanSplitJoin(es: seq<string>, pad: string)
    requires |es| >= 1
    requires forall i :: 0 <= i < |es| ==> IsAddr(es[i])
    requires AllSpace(pad) && ',' !in pad
    ensures Clean(Split(Join(es, [','] + pad), ',')) == es
  {
    if |es| == 1 {
      CleanSplitOne(es[0]);
    } else {
      var rest := Join(es[1..], [','] + pad);
      assert Join(es, [','] + pad) == es[0] + [','] + (pad + rest);
      CleanSplitStep(es[0], pad, rest);
      assert forall i :: 0 <= i < |es[1..]| ==> IsAddr(es[1..][i]) by {
        forall i | 0 <= i < |es[1..]| ensures IsAddr(es[1..][i]) {
          assert es[1..][i] == es[i + 1];
        }
      }
      CleanSplitJoin(es[1..], pad);
      assert es == [es[0]] + es[1..];
    }
  }

  lemma CleanSplitOne(e: string)
    requires IsAddr(e)
    ensures Clean(Split(e, ',')) == [e]
  {
    SplitNoSep(e, ',');
    TrimTrimmed(e);
  }

  /** One address, a comma and padding: the address is kept and the padding vanishes. */
  lemma CleanSplitStep(e: string, pad: string, rest: string)
    requires IsAddr(e) && AllSpace(pad) && ',' !in pad
    ensures Clean(Split(e + [','] + (pad + rest), ',')) == [e] + Clean(Split(rest, ','))
  {
    SplitConcat(e, ',', pad + rest);
    SplitNoSep(e, ',');
    CleanSplitPad(pad, rest);
    TrimTrimmed(e);
    CleanCons(e, Split(pad + rest, ','));
  }

  lemma CleanCons(x: string, xs: seq<string>)
    ensures Clean([x] + xs) == (if Trim(x) == "" then [] else [Trim(x)]) + Clean(xs)
  {
    assert ([x] + xs)[1..] == xs;
  }

  /**
   * Normalizing addresses written with any of the separators ",", ";", ", " or "; "
   * gives them back joined with ", ", in the same order and with duplicates kept.
   */
  lemma NormalizeCanonical(es: seq<string>, sep: string)
    requires forall i :: 0 <= i < |es| ==> IsAddr(es[i])
    requires sep in [",", ";", ", ", "; "]
    ensures NormalizeAddrList(Join(es, sep)) == Join(es, ", ")
    ensures AddrEntries(Join(es, sep)) == es
  {
    if |es| > 0 {
      var j := Join(es, sep);
      JoinTrimmed(es, sep);
      TrimTrimmed(j);
      var pad := SepPad(sep);
      ReplaceJoin(es, sep, ';', ',');
      var v := ReplaceChar(Trim(j), ';', ',');
      assert v == Join(es, [','] + pad);
      CleanSplitJoin(es, pad);
    }
  }

  /** The padding a separator leaves after its ";" is read as ",". */
  function SepPad(sep: string): (pad: string)
    requires sep in [",", ";", ", ", "; "]
    ensures ReplaceChar(sep, ';', ',') == [','] + pad
    ensures AllSpace(pad) && ',' !in pad
  {
    if |sep| == 2 then
      assert IsSpace(' ');
      " "
    else ""
  }

  /** A join of addresses is non-blank and already stripped. */
  lemma JoinTrimmed(es: seq<string>, sep: string)
    requires |es| > 0
    requires forall i :: 0 <= i < |es| ==> IsAddr(es[i])
    ensures Join(es, sep) != "" && Trimmed(Join(es, sep))
  {
    JoinEnds(es, sep);
    assert IsAddr(es[0]) && IsAddr(es[|es| - 1]);
  }

  /** `normalize_addr_list` is idempotent. */
  lemma NormalizeIdempotent(value: string)
    ensures NormalizeAddrList(NormalizeAddrList(value)) == NormalizeAddrList(value)
  {
    NormalizeCanonical(AddrEntries(value), ", ");
  }

  /** The normalized text never starts or ends with whitespace. */
  lemma NormalizeTrimmed(value: string)
    ensures Trimmed(NormalizeAddrList(value))
  {
    NormalizeIsJoin(value);
    NormalizeBlank(value);
    if AddrEntries(value) != [] {
      JoinTrimmed(AddrEntries(value), ", ");
    }
  }

  /** A cell normalizes to "" exactly when it holds no address. */
  lemma NormalizeBlank(value: string)
    ensures NormalizeAddrList(value) == "" <==> AddrEntries(value) == []
  {
    var es := AddrEntries(value);
    if es != [] {
      JoinEnds(es, ", ");
    }
  }

  /**
   * Recipient matching is order-sensitive: two addresses that differ even
   * ignoring case, listed in the other order and with any separators, normalise
   * to texts that still differ after lower-casing.
   */
  lemma NormalizeOrderSensitive(a: string, b: string, sep1: string, sep2: string)
    requires IsAddr(a) && IsAddr(b) && Lower(a) != Lower(b)
    requires sep1 in [",", ";", ", ", "; "] && sep2 in [",", ";", ", ", "; "]
    ensures Lower(NormalizeAddrList(Join([a, b], sep1))) != Lower(NormalizeAddrList(Join([b, a], sep2)))
  {
    NormalizePair(a, b, sep1);
    NormalizePair(b, a, sep2);
    SwappedPairsDiffer(a, b);
  }

  lemma NormalizePair(a: string, b: string, sep: string)
    requires IsAddr(a) && IsAddr(b)
    requires sep in [",", ";", ", ", "; "]
    ensures NormalizeAddrList(Join([a, b], sep)) == a + ", " + b
  {
    var es := [a, b];
    assert es[0] == a && es[1] == b;
    NormalizeCanonical(es, sep);
    assert Join(es[1..], ", ") == b;
  }

  /** `a, b` and `b, a` differ after lower-casing when the comma-free `a` and `b` do. */
  lemma SwappedPairsDiffer(a: string, b: string)
    requires ',' !in a && ',' !in b && Lower(a) != Lower(b)
    ensures Lower(a + ", " + b) != Lower(b + ", " + a)
  {
    var l1, l2 := Lower(a + ", " + b), Lower(b + ", " + a);
    if |a| == |b| {
      var k :| 0 <= k < |a| && Lower(a)[k] != Lower(b)[k];
      assert (a + ", " + b)[k] == a[k] && (b + ", " + a)[k] == b[k];
      assert l1[k] != l2[k];
    } else if |a| < |b| {
      assert (a + ", " + b)[|a|] == ',' && (b + ", " + a)[|a|] == b[|a|];
      assert l1[|a|] != l2[|a|];
    } else {
      assert (b + ", " + a)[|b|] == ',' && (a + ", " + b)[|b|] == a[|b|];
      assert l1[|b|] != l2[|b|];
    }
  }

  /** `split_attachments`: the cell split on `;` only, fields stripped, blanks dropped. */
  function SplitAttachments(value: string): (r: seq<string>)
    ensures forall i :: 0 <= i < |r| ==> IsAttachment(r[i])
  {
    var raw := Trim(value);
    if raw == "" then []
    else
      CleanKeepsAbsent(Split(raw, ';'), ';');
      Clean(Split(raw, ';'))
  }

  /**
   * Joining attachment paths with ";" (as the email event's file_path does) and
   * splitting again gives back the same paths in the same order.
   */
  lemma AttachmentsRoundTrip(paths: seq<string>)
    requires forall i :: 0 <= i < |paths| ==> IsAttachment(paths[i])
    ensures SplitAttachments(Join(paths, ";")) == paths
  {
    if |paths| > 0 {
      var j := Join(paths, ";");
      JoinEnds(paths, ";");
      TrimTrimmed(j);
      SplitJoin(paths, ';');
      CleanClean(paths);
    }
  }
}

=== FILE: audit.dfy ===
/**
 * The `events` audit table every revision reads and appends to: one immutable
 * record per pipeline-stage outcome. The table is a sequence in insertion order;
 * appending is the only way it changes.
 */
module Audit {
  import opened Base
  import opened Text
  import opened Addresses

  /** A calendar date as a day ordinal, so "the day before d" is `d - 1`. */
  type Day = nat

  datatype Status = OK | FAIL | SKIP {
    /** The text stored in the `status` column. */
    function Text(): string {
      match this
      case OK => "OK"
      case FAIL => "FAIL"
      case SKIP => "SKIP"
    }
  }

  /**
   * One row of `events`. `stage`, `status` and `method` stay text, as in the table (`methodTag` is the `method` column),
   * so that each revision's own comparison (exact, `LOWER`, `upper()`) is visible.
   * `id` is the auto-increment key; `timestamp` is `timestamp_utc`.
   */
  datatype Event = Event(
    id: nat,
    runId: string,
    batch: string,
    stage: string,
    timestamp: nat,
    runDate: Day,
    masterPath: string,
    filePath: string,
    methodTag: string,
    status: string,
    errorText: string,
    durationS: Option<int>,
    recipientsTo: string,
    subject: string)

  const RefreshStage := "Refresh"
  const EmailStage := "Email"

  /** `db_write_email_event` appends a row with id one past the rows already there. */
  function NextId(store: seq<Event>): nat {
    |store| + 1
  }

  /**
   * The row `db_write_email_event` inserts: stage and method "Email", the
   * attachment paths joined with ";" as `file_path`, no duration. Reading the
   * stored `file_path` back with `split_attachments` recovers the paths.
   */
  function EmailEvent(
    store: seq<Event>, runId: string, batch: string, runDate: Day, masterPath: string,
    atts: seq<string>, toNorm: string, subject: string, status: Status, error: string,
    timestamp: nat): (e: Event)
    ensures (forall i :: 0 <= i < |atts| ==> IsAttachment(atts[i])) ==> SplitAttachments(e.filePath) == atts
  {
    var e := Event(NextId(store), runId, batch, EmailStage, timestamp, runDate, masterPath,
                   Join(atts, ";"), EmailStage, status.Text(), error, None, toNorm, subject);
    if forall i :: 0 <= i < |atts| ==> IsAttachment(atts[i]) then
      AttachmentsRoundTrip(atts);
      e
    else e
  }

  /** Append-only: every later table starts with every earlier one. */
  predicate Extends(before: seq<Event>, after: seq<Event>) {
    |before| <= |after| && after[..|before|] == before
  }

  /** The rows a step added are all Email rows. */
  predicate OnlyEmailRows(rows: seq<Event>) {
    forall i :: 0 <= i < |rows| ==> rows[i].stage == EmailStage
  }
}

=== FILE: base.dfy ===
/** Failure-carrying values shared by every module of the model. */
module Base {

  /** A value that may be absent: a NULL column, a missing dictionary key. */
  datatype Option<+T> = None | Some(value: T) {
    function GetOr(default: T): T {
      match this
      case Some(v) => v
      case None => default
    }
  }

  /** The result of an operation that can raise: `Failure` carries the exception's message. */
  datatype Result<+T> = Success(value: T) | Failure(error: string)
}

=== FILE: conn.dfy ===
/**
 * `parse_conn_env` (Scripts/send_reports_configured.py, repeated verbatim in
 * Scripts/temp.py): the `Key=Value;...` text of the REPORTLOGS_CONN environment
 * variable turned into connection parameters. The variable's text is a parameter
 * here instead of being read from the process environment.
 */
module Conn {
  import opened Base
  import opened Text

  datatype ConnParams = ConnParams(
    host: string,
    port: int,
    user: string,
    password: string,
    database: string,
    charset: string,
    autocommit: bool,
    ssl: bool)

  const DefaultHost := "127.0.0.1"
  const DefaultPort := 3306
  const DefaultDatabase := "reportlogs"
  const DefaultUser := "root"

  /** The `;`-separated segments that are not blank, kept unstripped. */
  function NonBlank(parts: seq<string>): (r: seq<string>)
    ensures |r| <= |parts|
  {
    if |parts| == 0 then []
    else (if Trim(parts[0]) == "" then [] else [parts[0]]) + NonBlank(parts[1..])
  }

  function Segments(raw: string): seq<string> {
    NonBlank(Split(raw, ';'))
  }

  /** Index of the first `=` of a segment. */
  function FindEq(seg: string): (r: Option<nat>)
    ensures r.None? <==> '=' !in seg
    ensures r.Some? ==> r.value < |seg| && seg[r.value] == '=' && '=' !in seg[..r.value]
  {
    if |seg| == 0 then None
    else if seg[0] == '=' then Some(0)
    else match FindEq(seg[1..])
      case None => None
      case Some(i) => Some(i + 1)
  }

  /**
   * The key and value one segment binds: it splits on its first `=`, the key is
   * stripped and lower-cased, the value stripped; a segment without `=` binds nothing.
   */
  function Binding(seg: string): Option<(string, string)> {
    match FindEq(seg)
    case None => None
    case Some(i) => Some((Lower(Trim(seg[..i])), Trim(seg[i + 1..])))
  }

  /** The loop that fills the `kv` dictionary, segment by segment. */
  function Bind(segs: seq<string>, acc: map<string, string>): map<string, string>
  {
    if |segs| == 0 then acc
    else
      var acc' := match Binding(segs[0])
        case None => acc
        case Some(kv) => acc[kv.0 := kv.1];
      Bind(segs[1..], acc')
  }

  /** Reference reading of `kv.get(key)`: the value of the last segment that binds `key`. */
  function LastBinding(segs: seq<string>, key: string): Option<string>
  {
    if |segs| == 0 then None
    else match Binding(segs[|segs| - 1])
      case Some(kv) =>
        if kv.0 == key then Some(kv.1) else LastBinding(segs[..|segs| - 1], key)
      case None => LastBinding(segs[..|segs| - 1], key)
  }

  /** `kv.get(key)` on the connection text `raw`. */
  function Lookup(raw: string, key: string): Option<string> {
    LastBinding(Segments(raw), key)
  }

  lemma {:induction false} BindSnoc(segs: seq<string>, seg: string, acc: map<string, string>)
    ensures Bind(segs + [seg], acc) == match Binding(seg)
      case None => Bind(segs, acc)
      case Some(kv) => Bind(segs, acc)[kv.0 := kv.1]
  {
    if |segs| > 0 {
      assert (segs + [seg])[1..] == segs[1..] + [seg];
      var acc' := match Binding(segs[0])
        case None => acc
        case Some(kv) => acc[kv.0 := kv.1];
      BindSnoc(segs[1..], seg, acc');
    } else {
      assert segs + [seg] == [seg];
    }
  }

  /** The dictionary the loop builds answers every key with the last segment that binds it. */
  lemma {:induction false} BindIsLastBinding(segs: seq<string>, key: string)
    ensures Get(Bind(segs, map[]), key) == LastBinding(segs, key)
  {
    if |segs| > 0 {
      var init := segs[..|segs| - 1];
      assert segs == init + [segs[|segs| - 1]];
      BindSnoc(init, segs[|segs| - 1], map[]);
      BindIsLastBinding(init, key);
    }
  }

  function Get(kv: map<string, string>, key: string): Option<string> {
    if key in kv then Some(kv[key]) else None
  }

  /** Python's `a or b or default` over optional strings: the first present, non-empty one. */
  function FirstNonEmpty(a: Option<string>, b: Option<string>, default: string): string {
    if a.Some? && a.value != "" then a.value
    else if b.Some? && b.value != "" then b.value
    else default
  }

  /** `int(kv.get("port", 3306) or 3306)`: a missing or empty Port means 3306. */
  function PortOf(text: Option<string>): Result<int> {
    if text.None? || text.value == "" then Success(DefaultPort)
    else match ParseInt(text.value)
      case Some(n) => Success(n)
      case None => Failure("invalid literal for int() with base 10: '" + text.value + "'")
  }

  /** SSL is requested iff SslMode, lower-cased, is non-empty and neither "none" nor "disabled". */
  predicate WantsSsl(mode: Option<string>) {
    var m := Lower(if mode.Some? then mode.value else "");
    m != "" && m != "none" && m != "disabled"
  }

  /** The connection parameters read off the finished `kv` dictionary. */
  function Params(kv: map<string, string>): Result<ConnParams>
  {
    match PortOf(Get(kv, "port"))
    case Failure(e) => Failure(e)
    case Success(port) =>
      Success(ConnParams(
        host := Get(kv, "server").GetOr(DefaultHost),
        port := port,
        user := FirstNonEmpty(Get(kv, "uid"), Get(kv, "user"), DefaultUser),
        password := FirstNonEmpty(Get(kv, "pwd"), Get(kv, "password"), ""),
        database := Get(kv, "database").GetOr(DefaultDatabase),
        charset := "utf8mb4",
        autocommit := true,
        ssl := WantsSsl(Get(kv, "sslmode"))))
  }

  /**
   * `parse_conn_env`. Keys are case-insensitive, the last segment binding a key wins,
   * Uid beats User and Pwd beats Password (an empty value falls through), and a Port
   * that is not an integer literal raises.
   */
  function ParseConnEnv(raw: string): (r: Result<ConnParams>)
    ensures r.Failure? <==>
      Lookup(raw, "port").Some? && Lookup(raw, "port").value != "" && ParseInt(Lookup(raw, "port").value).None?
    ensures r.Success? ==>
      && r.value.host == Lookup(raw, "server").GetOr(DefaultHost)
      && r.value.database == Lookup(raw, "database").GetOr(DefaultDatabase)
      && r.value.user == FirstNonEmpty(Lookup(raw, "uid"), Lookup(raw, "user"), DefaultUser)
      && r.value.password == FirstNonEmpty(Lookup(raw, "pwd"), Lookup(raw, "password"), "")
      && (Lookup(raw, "port").None? || Lookup(raw, "port") == Some("") ==> r.value.port == DefaultPort)
      && (Lookup(raw, "port").Some? && Lookup(raw, "port").value != "" ==>
            Some(r.value.port) == ParseInt(Lookup(raw, "port").value))
      && (r.value.ssl <==> WantsSsl(Lookup(raw, "sslmode")))
      && r.value.charset == "utf8mb4" && r.value.autocommit
  {
    var segs := Segments(raw);
    BindIsLastBinding(segs, "server");
    BindIsLastBinding(segs, "port");
    BindIsLastBinding(segs, "database");
    BindIsLastBinding(segs, "uid");
    BindIsLastBinding(segs, "user");
    BindIsLastBinding(segs, "pwd");
    BindIsLastBinding(segs, "password");
    BindIsLastBinding(segs, "sslmode");
    Params(Bind(segs, map[]))
  }

  /** An unset REPORTLOGS_CONN gives the documented defaults and no SSL. */
  lemma ConnDefaults()
    ensures ParseConnEnv("") == Success(ConnParams(DefaultHost, DefaultPort, DefaultUser, "", DefaultDatabase, "utf8mb4", true, false))
  {
    assert Split("", ';') == [""];
    assert Trim("") == "";
  }

  /** The key of a binding does not depend on the case of the key as written. */
  lemma BindingKeyCaseInsensitive(k1: string, k2: string, v: string)
    requires '=' !in k1 && '=' !in k2 && Lower(k1) == Lower(k2)
    ensures Binding(k1 + "=" + v) == Binding(k2 + "=" + v)
  {
    FindEqAfter(k1, v);
    FindEqAfter(k2, v);
    assert (k1 + "=" + v)[..|k1|] == k1;
    assert (k2 + "=" + v)[..|k2|] == k2;
    assert (k1 + "=" + v)[|k1| + 1..] == v;
    assert (k2 + "=" + v)[|k2| + 1..] == v;
    LowerTrimCommutes(k1);
    LowerTrimCommutes(k2);
  }

  lemma {:induction false} FindEqAfter(k: string, v: string)
    requires '=' !in k
    ensures FindEq(k + "=" + v) == Some(|k|)
  {
    if |k| > 0 {
      assert (k + "=" + v)[1..] == k[1..] + "=" + v;
      FindEqAfter(k[1..], v);
    }
  }
}

=== FILE: csvgate.dfy ===
/**
 * The CSV-backed revision (Scripts/Old/send_reports_configured.py). The run
 * log is read once into a snapshot before the loop; every check of every row
 * consults that snapshot, while the rows the loop writes go to the file only.
 * Rows are chosen by an "X" in the Send column.
 */
module CsvGate {
  import opened Base
  import opened Text
  import opened Addresses
  import opened Audit
  import opened Dispatch
  import opened Store

  /** `today` is `date.today()` as the log's RunDate text compares it. */
  datatype Config = Config(batch: string, today: Day, masterPath: string, requireMethodEmail: bool, dryRun: bool)

  datatype Env = Env(send: SendOutcome, timestamp: nat)

  /** The row is selected: its Send cell, stripped and upper-cased, is "X". */
  predicate Marked(row: Row) {
    Upper(Trim(row.send)) == "X"
  }

  /** The mask of `most_recent_refresh_ok_today`, without its date term. */
  predicate IsRefreshOkRow(e: Event, p: string) {
    Lower(e.stage) == "refresh" && Upper(e.status) == "OK" && SamePath(e.filePath, p)
  }

  /** Some snapshot row records a successful refresh of `p` today; no ordering is involved. */
  predicate RefreshedToday(snap: seq<Event>, p: string, today: Day) {
    exists i :: 0 <= i < |snap| && IsRefreshOkRow(snap[i], p) && snap[i].runDate == today
  }

  /** `refresh_method_is_email_today`: among today's refreshes, one whose Method strips and lower-cases to "email". */
  predicate RefreshedByEmailToday(snap: seq<Event>, p: string, today: Day) {
    exists i :: 0 <= i < |snap| && IsRefreshOkRow(snap[i], p) && snap[i].runDate == today
                && Lower(Trim(snap[i].methodTag)) == "email"
  }

  /**
   * The mask of `already_emailed_today`: the stored recipients are normalised
   * again before the case-insensitive comparison; only the candidate subject is
   * stripped.
   */
  predicate IsSentToday(e: Event, toAddrs: string, subject: string, today: Day) {
    && Lower(e.stage) == "email" && Upper(e.status) == "OK"
    && e.runDate == today
    && Lower(NormalizeAddrList(e.recipientsTo)) == Lower(NormalizeAddrList(toAddrs))
    && Lower(e.subject) == Lower(Trim(subject))
  }

  predicate SentToday(snap: seq<Event>, toAddrs: string, subject: string, today: Day) {
    exists i :: 0 <= i < |snap| && IsSentToday(snap[i], toAddrs, subject, today)
  }

  predicate Fresh(cfg: Config, files: set<string>, snap: seq<Event>, p: string) {
    && p in files
    && RefreshedToday(snap, p, cfg.today)
    && (cfg.requireMethodEmail ==> RefreshedByEmailToday(snap, p, cfg.today))
  }

  predicate AllFresh(cfg: Config, files: set<string>, snap: seq<Event>, atts: seq<string>) {
    forall i :: 0 <= i < |atts| ==> Fresh(cfg, files, snap, atts[i])
  }

  function StalePaths(cfg: Config, files: set<string>, snap: seq<Event>, atts: seq<string>): seq<string> {
    StaleBy(p => Fresh(cfg, files, snap, p), atts)
  }

  /** The body of the freshness loop for one attachment, against the snapshot. */
  function CheckAttachment(cfg: Config, files: set<string>, snap: seq<Event>, p: string): (r: Option<Problem>)
    ensures r.None? <==> Fresh(cfg, files, snap, p)
    ensures r.Some? ==> r.value.path == p
    ensures r == Some(MissingFile(p)) <==> p !in files
    ensures r == Some(NoRefreshToday(p)) <==> p in files && !RefreshedToday(snap, p, cfg.today)
    ensures r == Some(MethodNotEmailToday(p)) <==>
      && p in files && RefreshedToday(snap, p, cfg.today)
      && cfg.requireMethodEmail && !RefreshedByEmailToday(snap, p, cfg.today)
  {
    if p !in files then Some(MissingFile(p))
    else if !RefreshedToday(snap, p, cfg.today) then Some(NoRefreshToday(p))
    else if cfg.requireMethodEmail && !RefreshedByEmailToday(snap, p, cfg.today) then Some(MethodNotEmailToday(p))
    else None
  }

  /** The problems name exactly the attachments that fail the snapshot check, in order, each as its check reports it. */
  function Problems(cfg: Config, files: set<string>, snap: seq<Event>, atts: seq<string>): (r: seq<Problem>)
    ensures PathsOf(r) == StalePaths(cfg, files, snap, atts)
    ensures r == [] <==> AllFresh(cfg, files, snap, atts)
    ensures forall i :: 0 <= i < |r| ==> CheckAttachment(cfg, files, snap, r[i].path) == Some(r[i])
  {
    ProblemsBy(p => CheckAttachment(cfg, files, snap, p), p => Fresh(cfg, files, snap, p), atts)
  }

  datatype Decision = Unmarked | MissingReceiver | MissingSubject | AlreadySent | Stale(problems: seq<Problem>) | Eligible

  /** Mark, receiver, subject, today's duplicate, then freshness; a row without attachments passes. */
  function Decide(cfg: Config, files: set<string>, snap: seq<Event>, row: Row): (d: Decision)
    ensures d == Unmarked <==> !Marked(row)
    ensures d == MissingReceiver <==> Marked(row) && ToNorm(row) == ""
    ensures d == MissingSubject <==> Marked(row) && ToNorm(row) != "" && SubjectOf(row) == ""
    ensures d == AlreadySent <==>
      Marked(row) && ToNorm(row) != "" && SubjectOf(row) != "" && SentToday(snap, ToNorm(row), SubjectOf(row), cfg.today)
    ensures d.Stale? <==>
      && Marked(row) && ToNorm(row) != "" && SubjectOf(row) != ""
      && !SentToday(snap, ToNorm(row), SubjectOf(row), cfg.today)
      && !AllFresh(cfg, files, snap, Attachments(row))
    ensures d.Stale? ==> d.problems != [] && PathsOf(d.problems) == StalePaths(cfg, files, snap, Attachments(row))
    ensures d.Stale? ==>
      forall i :: 0 <= i < |d.problems| ==> CheckAttachment(cfg, files, snap, d.problems[i].path) == Some(d.problems[i])
    ensures d == Eligible <==>
      && Marked(row) && ToNorm(row) != "" && SubjectOf(row) != ""
      && !SentToday(snap, ToNorm(row), SubjectOf(row), cfg.today)
      && AllFresh(cfg, files, snap, Attachments(row))
  {
    if !Marked(row) then Unmarked
    else if ToNorm(row) == "" then MissingReceiver
    else if SubjectOf(row) == "" then MissingSubject
    else if SentToday(snap, ToNorm(row), SubjectOf(row), cfg.today) then AlreadySent
    else
      var problems := Problems(cfg, files, snap, Attachments(row));
      if problems != [] then Stale(problems) else Eligible
  }

  /** A row `append_log_row` writes: no run id, no id, method "Email", no duration. */
  function LogRow(cfg: Config, env: Env, filePath: string, toAddrs: string, subject: string,
                  status: Status, error: string): Event
  {
    Event(0, "", cfg.batch, EmailStage, env.timestamp, cfg.today, cfg.masterPath, filePath, EmailStage,
          status.Text(), error, None, toAddrs, subject)
  }

  /**
   * A later same-day duplicate check for a log row's recipients and (stripped)
   * subject finds the row exactly when its status is OK.
   */
  lemma LogRowFound(cfg: Config, env: Env, filePath: string, toAddrs: string, subject: string,
                    status: Status, error: string)
    requires Trimmed(subject)
    ensures IsSentToday(LogRow(cfg, env, filePath, toAddrs, subject, status, error), toAddrs, subject, cfg.today)
            <==> status == Status.OK
  {
    StoredTexts();
    TrimTrimmed(subject);
  }

  /** One pass of the loop body: the row is passed over, logged, or an exception leaves `main`. */
  datatype RowResult =
    | Passed
    | Logged(status: Status, sent: bool, event: Event)
    | Raised(message: string)

  /**
   * One pass of the loop body against the snapshot. An eligible row whose To,
   * Cc or Subject value spans lines makes the `EmailMessage` header assignment
   * raise, before the dry-run test; nothing catches it.
   */
  function Step(cfg: Config, files: set<string>, env: Env, snap: seq<Event>, row: Row): (r: RowResult)
    ensures r.Passed? <==> !Marked(row)
    ensures r.Raised? <==> Decide(cfg, files, snap, row) == Eligible && !HeadersAccepted(row)
    ensures r.Raised? ==> r.message == HeaderRefused
    ensures r.Logged? ==> r.event.stage == EmailStage && r.event.status == r.status.Text()
    ensures r.Logged? ==> r.event.runDate == cfg.today && r.event.batch == cfg.batch
    ensures r.Logged? ==> (r.sent <==> Decide(cfg, files, snap, row) == Eligible && !cfg.dryRun)
    ensures r.Logged? ==> (r.status == Status.OK <==> r.sent && env.send == Delivered)
    ensures r.Logged? && r.status == Status.OK ==>
      r.event.recipientsTo == ToNorm(row) && r.event.subject == SubjectOf(row) && r.event.errorText == ""
    ensures r.Logged? && r.sent && env.send.SendError? ==>
      r.status == Status.FAIL && r.event.errorText == env.send.message
    ensures r.Logged? ==>
      (r.event.filePath == "" <==>
        Decide(cfg, files, snap, row) in {MissingReceiver, MissingSubject, AlreadySent} || Attachments(row) == [])
    ensures r.Logged? && r.event.filePath != "" ==> r.event.filePath == Join(Attachments(row), ";")
    ensures Decide(cfg, files, snap, row) == MissingReceiver ==>
      r.Logged? && r.status == Status.FAIL && r.event.errorText == "Missing Receiver" && r.event.recipientsTo == ""
    ensures Decide(cfg, files, snap, row) == MissingSubject ==>
      r.Logged? && r.status == Status.FAIL && r.event.errorText == "Missing Subject" && r.event.subject == ""
    ensures Decide(cfg, files, snap, row) == AlreadySent ==>
      r.Logged? && r.status == Status.SKIP && r.event.errorText == "Already emailed today (To+Subject)"
    ensures Decide(cfg, files, snap, row).Stale? ==>
      && r.Logged? && r.status == Status.FAIL
      && r.event.errorText == ProblemText(Decide(cfg, files, snap, row).problems)
    ensures Decide(cfg, files, snap, row) == Eligible && HeadersAccepted(row) && cfg.dryRun ==>
      r.Logged? && r.status == Status.SKIP && r.event.errorText == "DRYRUN"
  {
    var toNorm := ToNorm(row);
    var subject := SubjectOf(row);
    var joined := Join(Attachments(row), ";");
    JoinBlank(Attachments(row));
    match Decide(cfg, files, snap, row)
    case Unmarked => Passed
    case MissingReceiver =>
      Logged(Status.FAIL, false, LogRow(cfg, env, "", "", subject, Status.FAIL, "Missing Receiver"))
    case MissingSubject =>
      Logged(Status.FAIL, false, LogRow(cfg, env, "", toNorm, "", Status.FAIL, "Missing Subject"))
    case AlreadySent =>
      Logged(Status.SKIP, false, LogRow(cfg, env, "", toNorm, subject, Status.SKIP, "Already emailed today (To+Subject)"))
    case Stale(ps) =>
      Logged(Status.FAIL, false, LogRow(cfg, env, joined, toNorm, subject, Status.FAIL, ProblemText(ps)))
    case Eligible =>
      if !HeadersAccepted(row) then Raised(HeaderRefused)
      else if cfg.dryRun then Logged(Status.SKIP, false, LogRow(cfg, env, joined, toNorm, subject, Status.SKIP, "DRYRUN"))
      else match env.send
        case Delivered => Logged(Status.OK, true, LogRow(cfg, env, joined, toNorm, subject, Status.OK, ""))
        case SendError(msg) => Logged(Status.FAIL, true, LogRow(cfg, env, joined, toNorm, subject, Status.FAIL, msg))
  }

  /** Joining attachment paths is blank only when there are none. */
  lemma JoinBlank(atts: seq<string>)
    requires forall i :: 0 <= i < |atts| ==> IsAttachment(atts[i])
    ensures Join(atts, ";") == "" <==> atts == []
  {
    if |atts| > 0 {
      assert atts[0] != "";
      if |atts| == 1 {
        assert Join(atts, ";") == atts[0];
      } else {
        assert Join(atts, ";") == atts[0] + ";" + Join(atts[1..], ";");
      }
    }
  }

  /** The loop ended early: its last pass raised. */
  predicate Aborted(rs: seq<RowResult>) {
    |rs| > 0 && rs[|rs| - 1].Raised?
  }

  /**
   * The loop: every row is decided against the same snapshot, up to and
   * including the first row whose pass raises.
   */
  function Loop(cfg: Config, files: set<string>, snap: seq<Event>, rows: seq<Row>, envs: seq<Env>): (rs: seq<RowResult>)
    requires |envs| == |rows|
    ensures |rs| <= |rows|
    ensures forall k :: 0 <= k < |rs| ==> rs[k] == Step(cfg, files, envs[k], snap, rows[k])
    ensures forall k :: 0 <= k < |rs| - 1 ==> !rs[k].Raised?
    ensures |rs| < |rows| ==> Aborted(rs)
  {
    if |rows| == 0 then []
    else
      var first := Step(cfg, files, envs[0], snap, rows[0]);
      if first.Raised? then [first]
      else
        var rest := Loop(cfg, files, snap, rows[1..], envs[1..]);
        StepsCons(cfg, files, snap, rows, envs, first, rest);
        RaisedCons(first, rest, |rows|);
        [first] + rest
  }

  lemma StepsCons(cfg: Config, files: set<string>, snap: seq<Event>, rows: seq<Row>, envs: seq<Env>,
                  first: RowResult, rest: seq<RowResult>)
    requires 0 < |rows| == |envs| && first == Step(cfg, files, envs[0], snap, rows[0])
    requires |rest| <= |rows| - 1
    requires forall k :: 0 <= k < |rest| ==> rest[k] == Step(cfg, files, envs[1..][k], snap, rows[1..][k])
    ensures forall k :: 0 <= k < |[first] + rest| ==> ([first] + rest)[k] == Step(cfg, files, envs[k], snap, rows[k])
  {
    var rs := [first] + rest;
    forall k | 0 <= k < |rs| ensures rs[k] == Step(cfg, files, envs[k], snap, rows[k]) {
      if k > 0 {
        assert rs[k] == rest[k - 1];
        assert rows[1..][k - 1] == rows[k] && envs[1..][k - 1] == envs[k];
      }
    }
  }

  /** A pass that did not raise, in front of a loop that stops only at a raise, keeps that shape. */
  lemma RaisedCons(first: RowResult, rest: seq<RowResult>, m: nat)
    requires !first.Raised? && |rest| < m
    requires forall k :: 0 <= k < |rest| - 1 ==> !rest[k].Raised?
    requires |rest| < m - 1 ==> Aborted(rest)
    ensures forall k :: 0 <= k < |[first] + rest| - 1 ==> !([first] + rest)[k].Raised?
    ensures |[first] + rest| < m ==> Aborted([first] + rest)
  {
    var rs := [first] + rest;
    forall k | 1 <= k < |rs| - 1 ensures !rs[k].Raised? {
      assert rs[k] == rest[k - 1];
    }
    if |rs| < m {
      assert rs[|rs| - 1] == rest[|rest| - 1];
    }
  }

  function MarkedCount(rows: seq<Row>): nat {
    if |rows| == 0 then 0 else (if Marked(rows[0]) then 1 else 0) + MarkedCount(rows[1..])
  }

  /** How many of `rs` wrote a log row. */
  function LoggedCount(rs: seq<RowResult>): nat {
    if |rs| == 0 then 0 else (if rs[0].Logged? then 1 else 0) + LoggedCount(rs[1..])
  }

  /**
   * The rows appended to the log file, in row order; unmarked rows add none:
   * the row of the `k`-th result lands after one row per logged result before it.
   */
  function Appended(rs: seq<RowResult>): (es: seq<Event>)
    requires forall k :: 0 <= k < |rs| && rs[k].Logged? ==> rs[k].event.stage == EmailStage
    ensures |es| <= |rs|
    ensures OnlyEmailRows(es)
    ensures |es| == LoggedCount(rs)
    ensures forall k :: 0 <= k < |rs| && rs[k].Logged? ==>
      LoggedCount(rs[..k]) < |es| && es[LoggedCount(rs[..k])] == rs[k].event
  {
    if |rs| == 0 then []
    else
      var here := if rs[0].Logged? then [rs[0].event] else [];
      var rest := Appended(rs[1..]);
      assert forall i :: 0 <= i < |here + rest| ==> (here + rest)[i] in here || (here + rest)[i] == rest[i - |here|];
      AppendedInOrder(rs, here, rest);
      here + rest
  }

  lemma AppendedInOrder(rs: seq<RowResult>, here: seq<Event>, rest: seq<Event>)
    requires |rs| > 0 && here == (if rs[0].Logged? then [rs[0].event] else [])
    requires forall k :: 0 <= k < |rs[1..]| && rs[1..][k].Logged? ==>
      LoggedCount(rs[1..][..k]) < |rest| && rest[LoggedCount(rs[1..][..k])] == rs[1..][k].event
    ensures forall k :: 0 <= k < |rs| && rs[k].Logged? ==>
      LoggedCount(rs[..k]) < |here + rest| && (here + rest)[LoggedCount(rs[..k])] == rs[k].event
  {
    forall k | 0 <= k < |rs| && rs[k].Logged?
      ensures LoggedCount(rs[..k]) < |here + rest| && (here + rest)[LoggedCount(rs[..k])] == rs[k].event
    {
      if k > 0 {
        assert rs[..k][1..] == rs[1..][..k - 1];
        assert rs[1..][k - 1] == rs[k];
      }
    }
  }

  datatype Report = Report(exitCode: int, log: seq<Event>)

  const RequiredColumns: set<string> := {"Send", "Receiver", "Subject", "Attachment", "{VARIABLE1}"}

  /**
   * `main`: missing credentials or a missing column end the run with 2 and an
   * untouched log. Otherwise each row reached appends its log row as it goes;
   * the exit code is 0 whatever the rows' outcomes, unless an exception ends
   * the loop, which exits 1 with the rows appended before it kept.
   */
  function Main(credentialsSet: bool, columns: set<string>, cfg: Config, files: set<string>,
                log: seq<Event>, rows: seq<Row>, envs: seq<Env>): (r: Report)
    requires |envs| == |rows|
    ensures !credentialsSet || !(RequiredColumns <= columns) ==> r.exitCode == 2 && r.log == log
    ensures credentialsSet && RequiredColumns <= columns ==>
      && Extends(log, r.log)
      && OnlyEmailRows(r.log[|log|..])
      && r.log == log + Appended(Loop(cfg, files, log, rows, envs))
      && (r.exitCode == 1 <==> Aborted(Loop(cfg, files, log, rows, envs)))
      && (r.exitCode == 0 || r.exitCode == 1)
      && (!Aborted(Loop(cfg, files, log, rows, envs)) ==> |r.log| == |log| + MarkedCount(rows))
  {
    if !credentialsSet || !(RequiredColumns <= columns) then Report(2, log)
    else
      var rs := Loop(cfg, files, log, rows, envs);
      var added := Appended(rs);
      AppendedCount(cfg, files, log, rows, envs);
      var after := log + added;
      assert after[..|log|] == log && after[|log|..] == added;
      Report(if Aborted(rs) then 1 else 0, after)
  }

  /** A loop that runs to the end appends one row per marked row. */
  lemma {:induction false} AppendedCount(cfg: Config, files: set<string>, snap: seq<Event>, rows: seq<Row>, envs: seq<Env>)
    requires |envs| == |rows|
    ensures !Aborted(Loop(cfg, files, snap, rows, envs)) ==>
      |Appended(Loop(cfg, files, snap, rows, envs))| == MarkedCount(rows)
  {
    var rs := Loop(cfg, files, snap, rows, envs);
    if |rows| > 0 && !Aborted(rs) {
      var first := Step(cfg, files, envs[0], snap, rows[0]);
      assert rs[0] == first && !first.Raised?;
      var rest := Loop(cfg, files, snap, rows[1..], envs[1..]);
      assert rs == [first] + rest && rs[1..] == rest;
      AppendedCount(cfg, files, snap, rows[1..], envs[1..]);
    }
  }

  /** The stage and status texts this revision writes pass its own case-folded comparisons. */
  lemma StoredTexts()
    ensures Lower(EmailStage) == "email" && Upper(Status.OK.Text()) == "OK"
  {
    assert Lower(EmailStage) == [LowerChar('E')] + Lower("mail");
  }

  /**
   * A delivered row is skipped by any later run on the same day whose snapshot
   * holds the row it logged: the stored recipients normalise back to
   * themselves and the stored subject is already stripped.
   */
  lemma {:induction false} LoggedDeliverySkipsRerun(cfg: Config, files: set<string>, env: Env, snap: seq<Event>,
                                                   row: Row, before: seq<Event>, after: seq<Event>)
    requires Step(cfg, files, env, snap, row).Logged? && Step(cfg, files, env, snap, row).status == Status.OK
    ensures Decide(cfg, files, before + [Step(cfg, files, env, snap, row).event] + after, row) == AlreadySent
  {
    var e := Step(cfg, files, env, snap, row).event;
    var later := before + [e] + after;
    assert later[|before|] == e;
    assert e.stage == EmailStage && e.status == "OK" && e.runDate == cfg.today;
    assert e.recipientsTo == ToNorm(row) && e.subject == SubjectOf(row);
    StoredTexts();
    TrimTrimmed(SubjectOf(row));
    assert IsSentToday(e, ToNorm(row), SubjectOf(row), cfg.today);
  }

  /**
   * Unlike the DB-backed revisions, a row listed twice in one run is sent
   * twice: both copies are decided against the same snapshot.
   */
  lemma RepeatedRowSentTwice(cfg: Config, files: set<string>, snap: seq<Event>, rows: seq<Row>, envs: seq<Env>,
                             j: nat, k: nat)
    requires |envs| == |rows| && j < k < |Loop(cfg, files, snap, rows, envs)|
    requires rows[j] == rows[k] && envs[k].send == Delivered
    requires Loop(cfg, files, snap, rows, envs)[j].Logged? && Loop(cfg, files, snap, rows, envs)[j].status == Status.OK
    ensures Loop(cfg, files, snap, rows, envs)[k].Logged? && Loop(cfg, files, snap, rows, envs)[k].status == Status.OK
  {
  }
}

=== FILE: dispatch.dfy ===
/**
 * What the three revisions of the email runner share around the gate: the
 * email-list row, the headers the message refuses, the send oracle, the
 * freshness loop and the reasons it gives, and the OK/FAIL/SKIP summary with its
 * exit code.
 */
module Dispatch {
  import opened Base
  import opened Text
  import opened Addresses
  import opened Audit

  /**
   * One row of the List sheet, each cell as `str(value)`. `send` is the "Send"
   * column only the CSV-backed revision reads.
   */
  datatype Row = Row(send: string, receiver: string, cc: string, bcc: string, subject: string, attachments: string)

  /** `cell_str` strips the cell's text. */
  function Cell(text: string): string {
    Trim(text)
  }

  function ToNorm(row: Row): string {
    NormalizeAddrList(Cell(row.receiver))
  }

  function SubjectOf(row: Row): string {
    Cell(row.subject)
  }

  function Attachments(row: Row): seq<string> {
    SplitAttachments(Cell(row.attachments))
  }

  function CcOf(row: Row): string {
    NormalizeAddrList(Cell(row.cc))
  }

  /** The characters Python's `str.splitlines` ends a line at. */
  predicate IsLineBreak(c: char) {
    || c == '\n' || c == '\r' || c == '\U{000B}' || c == '\U{000C}'
    || ('\U{001C}' <= c <= '\U{001E}') || c == '\U{0085}' || c == '\U{2028}' || c == '\U{2029}'
  }

  /** Where the line break at `i` ends: "\r\n" is one break. */
  function BreakEnd(v: string, i: nat): nat
    requires i < |v|
  {
    if v[i] == '\r' && i + 1 < |v| && v[i + 1] == '\n' then i + 2 else i + 1
  }

  /** `len(v.splitlines()) > 1`: some line break has more text after it. */
  predicate SpansLines(v: string) {
    exists i :: 0 <= i < |v| && IsLineBreak(v[i]) && BreakEnd(v, i) < |v|
  }

  predicate HasLineBreak(v: string) {
    exists i :: 0 <= i < |v| && IsLineBreak(v[i])
  }

  /**
   * A stripped header value spans lines exactly when it holds a line break:
   * every line break is whitespace, so none can end the value.
   */
  lemma TrimmedSpansLines(v: string)
    requires Trimmed(v)
    ensures SpansLines(v) <==> HasLineBreak(v)
  {
    if HasLineBreak(v) {
      var i :| 0 <= i < |v| && IsLineBreak(v[i]);
      assert !IsLineBreak(v[|v| - 1]);
      if BreakEnd(v, i) == i + 2 {
        assert IsLineBreak(v[i + 1]);
      }
    }
  }

  /** The text of the `ValueError` an `EmailMessage` header assignment raises. */
  const HeaderRefused := "Header values may not contain linefeed or carriage return characters"

  /**
   * `EmailMessage` under `policy.default` takes the To, Cc and Subject values:
   * none of them spans lines. Cc is only set when non-blank, and "" spans none.
   */
  predicate HeadersAccepted(row: Row) {
    !SpansLines(ToNorm(row)) && !SpansLines(CcOf(row)) && !SpansLines(SubjectOf(row))
  }

  /** The message is refused exactly when the recipients, the Cc list or the subject hold a line break. */
  lemma HeadersAcceptedIff(row: Row)
    ensures HeadersAccepted(row) <==>
      !HasLineBreak(ToNorm(row)) && !HasLineBreak(CcOf(row)) && !HasLineBreak(SubjectOf(row))
  {
    NormalizeTrimmed(Cell(row.receiver));
    NormalizeTrimmed(Cell(row.cc));
    TrimmedSpansLines(ToNorm(row));
    TrimmedSpansLines(CcOf(row));
    TrimmedSpansLines(SubjectOf(row));
  }

  /** The outcome of handing a message to the SMTP transport: delivered, or the exception's text. */
  datatype SendOutcome = Delivered | SendError(message: string)

  /** A date as `{date}` renders it in a message (the day ordinal in decimal). */
  function DayText(d: Day): string {
    NatText(d)
  }

  /** One reason an attachment is not fit to send, worded as each revision words it. */
  datatype Problem =
    | MissingFile(path: string)
    | NoRefreshInDatabase(path: string)
    | NotRefreshedFor(runDate: Day, last: Day, path: string)
    | MethodNotEmailForToday(path: string)
    | NoRefreshToday(path: string)
    | MethodNotEmailToday(path: string)

  function Message(p: Problem): string {
    match p
    case MissingFile(path) => "Missing file: " + path
    case NoRefreshInDatabase(path) => "No successful refresh found in database: " + path
    case NotRefreshedFor(d, last, path) =>
      "File not refreshed for today (" + DayText(d) + "). Last refresh: " + DayText(last) + ": " + path
    case MethodNotEmailForToday(path) => "Method not 'Email' for today: " + path
    case NoRefreshToday(path) => "No successful refresh today: " + path
    case MethodNotEmailToday(path) => "Method not 'Email' today: " + path
  }

  function Messages(ps: seq<Problem>): (r: seq<string>)
    ensures |r| == |ps|
  {
    if |ps| == 0 then [] else [Message(ps[0])] + Messages(ps[1..])
  }

  /** `"; ".join(problems)`. */
  function ProblemText(ps: seq<Problem>): string {
    Join(Messages(ps), "; ")
  }

  /** The paths the problems name, in order. */
  function PathsOf(ps: seq<Problem>): (r: seq<string>)
    ensures |r| == |ps|
    ensures forall i :: 0 <= i < |ps| ==> r[i] == ps[i].path
  {
    if |ps| == 0 then [] else [ps[0].path] + PathsOf(ps[1..])
  }

  lemma PathsOfConcat(a: seq<Problem>, b: seq<Problem>)
    ensures PathsOf(a + b) == PathsOf(a) + PathsOf(b)
  {
    assert forall i :: 0 <= i < |a + b| ==> PathsOf(a + b)[i] == (PathsOf(a) + PathsOf(b))[i];
  }

  /** The attachments that `accepts` rejects, in order. */
  function StaleBy(accepts: string -> bool, atts: seq<string>): seq<string> {
    if |atts| == 0 then []
    else (if accepts(atts[0]) then [] else [atts[0]]) + StaleBy(accepts, atts[1..])
  }

  /**
   * The freshness loop every revision runs: each attachment is checked in turn
   * and the problem its check reports, if any, is appended. The check reports
   * nothing exactly for the attachments `accepts` accepts, and a problem always
   * names the attachment it was given. The problems name exactly the rejected
   * attachments, in order, each as its own check reports it.
   */
  function ProblemsBy(check: string -> Option<Problem>, accepts: string -> bool, atts: seq<string>): (r: seq<Problem>)
    requires forall p :: check(p).None? <==> accepts(p)
    requires forall p :: check(p).Some? ==> check(p).value.path == p
    ensures PathsOf(r) == StaleBy(accepts, atts)
    ensures r == [] <==> forall i :: 0 <= i < |atts| ==> accepts(atts[i])
    ensures forall i :: 0 <= i < |r| ==> check(r[i].path) == Some(r[i])
  {
    if |atts| == 0 then []
    else
      var rest := ProblemsBy(check, accepts, atts[1..]);
      ProblemsCons(check, accepts, atts, rest);
      ProblemsOf(check, atts[0]) + rest
  }

  /** The problem one attachment contributes: none, or the one its check reports. */
  function ProblemsOf(check: string -> Option<Problem>, p: string): seq<Problem> {
    match check(p)
    case None => []
    case Some(q) => [q]
  }

  lemma ProblemsCons(check: string -> Option<Problem>, accepts: string -> bool, atts: seq<string>, rest: seq<Problem>)
    requires forall p :: check(p).None? <==> accepts(p)
    requires forall p :: check(p).Some? ==> check(p).value.path == p
    requires |atts| > 0
    requires PathsOf(rest) == StaleBy(accepts, atts[1..])
    requires rest == [] <==> forall i :: 0 <= i < |atts[1..]| ==> accepts(atts[1..][i])
    requires forall i :: 0 <= i < |rest| ==> check(rest[i].path) == Some(rest[i])
    ensures var r := ProblemsOf(check, atts[0]) + rest;
      && PathsOf(r) == StaleBy(accepts, atts)
      && (r == [] <==> forall i :: 0 <= i < |atts| ==> accepts(atts[i]))
      && forall i :: 0 <= i < |r| ==> check(r[i].path) == Some(r[i])
  {
    var here := ProblemsOf(check, atts[0]);
    ProblemsOfOne(check, accepts, atts[0]);
    PathsOfConcat(here, rest);
    AllCons(accepts, atts);
    KindsConcat(check, here, rest);
  }

  lemma ProblemsOfOne(check: string -> Option<Problem>, accepts: string -> bool, p: string)
    requires check(p).None? <==> accepts(p)
    requires check(p).Some? ==> check(p).value.path == p
    ensures ProblemsOf(check, p) == [] <==> accepts(p)
    ensures PathsOf(ProblemsOf(check, p)) == (if accepts(p) then [] else [p])
    ensures forall i :: 0 <= i < |ProblemsOf(check, p)| ==> check(ProblemsOf(check, p)[i].path) == Some(ProblemsOf(check, p)[i])
  {
  }

  lemma KindsConcat(check: string -> Option<Problem>, here: seq<Problem>, rest: seq<Problem>)
    requires forall i :: 0 <= i < |here| ==> check(here[i].path) == Some(here[i])
    requires forall i :: 0 <= i < |rest| ==> check(rest[i].path) == Some(rest[i])
    ensures forall i :: 0 <= i < |here + rest| ==> check((here + rest)[i].path) == Some((here + rest)[i])
  {
    forall i | 0 <= i < |here + rest|
      ensures check((here + rest)[i].path) == Some((here + rest)[i])
    {
      if i >= |here| {
        assert (here + rest)[i] == rest[i - |here|];
      }
    }
  }

  lemma AllCons(accepts: string -> bool, atts: seq<string>)
    requires |atts| > 0
    ensures (forall i :: 0 <= i < |atts| ==> accepts(atts[i])) <==>
      accepts(atts[0]) && forall i :: 0 <= i < |atts[1..]| ==> accepts(atts[1..][i])
  {
    assert forall i :: 1 <= i < |atts| ==> atts[i] == atts[1..][i - 1];
  }

  datatype Summary = Summary(ok: nat, fail: nat, skip: nat) {
    function Total(): nat {
      ok + fail + skip
    }

    /** The counter kept for status `s`. */
    function Of(s: Status): nat {
      match s
      case OK => ok
      case FAIL => fail
      case SKIP => skip
    }

    /** Bump exactly one counter. */
    function Count(s: Status): (r: Summary)
      ensures r.Total() == Total() + 1
      ensures s == Status.OK ==> r == Summary(ok + 1, fail, skip)
      ensures s == Status.FAIL ==> r == Summary(ok, fail + 1, skip)
      ensures s == Status.SKIP ==> r == Summary(ok, fail, skip + 1)
    {
      match s
      case OK => Summary(ok + 1, fail, skip)
      case FAIL => Summary(ok, fail + 1, skip)
      case SKIP => Summary(ok, fail, skip + 1)
    }
  }

  /** `return 0 if total_fail == 0 else 1`. */
  function ExitCode(s: Summary): int {
    if s.fail == 0 then 0 else 1
  }
}

=== FILE: export.dfy ===
/**
 * `export_email_csv` (Scripts/send_reports_configured.py): the rows of one run,
 * ordered by (timestamp_utc, id), projected onto a fixed 12-column header. Only
 * the selection, the ordering and the projection are modelled.
 */
module Export {
  import opened Base
  import opened Text
  import opened Audit

  /** `ORDER BY timestamp_utc ASC, id ASC`. */
  predicate Before(a: Event, b: Event) {
    a.timestamp < b.timestamp || (a.timestamp == b.timestamp && a.id <= b.id)
  }

  predicate Ordered(s: seq<Event>) {
    forall i, j :: 0 <= i < j < |s| ==> Before(s[i], s[j])
  }

  function Insert(e: Event, s: seq<Event>): (r: seq<Event>)
    ensures multiset(r) == multiset(s) + multiset{e}
  {
    if |s| == 0 then [e]
    else if Before(e, s[0]) then [e] + s
    else
      assert s == [s[0]] + s[1..];
      [s[0]] + Insert(e, s[1..])
  }

  /** Every element of an insertion result is bounded below by a bound of the inputs. */
  lemma {:induction false} InsertLowerBound(b: Event, e: Event, s: seq<Event>)
    requires Before(b, e)
    requires forall k :: 0 <= k < |s| ==> Before(b, s[k])
    ensures forall k :: 0 <= k < |Insert(e, s)| ==> Before(b, Insert(e, s)[k])
  {
    if |s| > 0 && !Before(e, s[0]) {
      InsertLowerBound(b, e, s[1..]);
      var rest := Insert(e, s[1..]);
      assert Insert(e, s) == [s[0]] + rest;
      assert forall k :: 1 <= k < |Insert(e, s)| ==> Insert(e, s)[k] == rest[k - 1];
    }
  }

  /** Inserting into an ordered sequence keeps it ordered. */
  lemma {:induction false} InsertOrdered(e: Event, s: seq<Event>)
    requires Ordered(s)
    ensures Ordered(Insert(e, s))
  {
    if |s| > 0 && !Before(e, s[0]) {
      var rest := Insert(e, s[1..]);
      InsertOrdered(e, s[1..]);
      InsertLowerBound(s[0], e, s[1..]);
      OrderedCons(s[0], rest);
    }
  }

  /** An ordered sequence stays ordered under a new head that comes before all of it. */
  lemma OrderedCons(x: Event, rest: seq<Event>)
    requires Ordered(rest)
    requires forall k :: 0 <= k < |rest| ==> Before(x, rest[k])
    ensures Ordered([x] + rest)
  {
    var r := [x] + rest;
    forall i, j | 0 <= i < j < |r| ensures Before(r[i], r[j]) {
      assert r[j] == rest[j - 1];
      if i > 0 {
        assert r[i] == rest[i - 1];
      }
    }
  }

  /** Insertion sort on (timestamp, id). */
  function SortRows(s: seq<Event>): (r: seq<Event>)
    ensures Ordered(r)
    ensures multiset(r) == multiset(s)
  {
    if |s| == 0 then []
    else
      assert s == [s[0]] + s[1..];
      InsertOrdered(s[0], SortRows(s[1..]));
      Insert(s[0], SortRows(s[1..]))
  }

  /** `WHERE run_id = %s`, in table order. */
  function OfRun(store: seq<Event>, runId: string): (r: seq<Event>)
    ensures forall e :: e in r <==> e in store && e.runId == runId
    ensures forall e :: multiset(r)[e] == (if e.runId == runId then multiset(store)[e] else 0)
  {
    if |store| == 0 then []
    else
      assert store == [store[0]] + store[1..];
      (if store[0].runId == runId then [store[0]] else []) + OfRun(store[1..], runId)
  }

  /**
   * The events the export writes: every event of the run, each as often as it
   * occurs in the table, no other event, in (timestamp, id) order.
   */
  function ExportEvents(store: seq<Event>, runId: string): (r: seq<Event>)
    ensures Ordered(r)
    ensures multiset(r) == multiset(OfRun(store, runId))
    ensures forall e :: e in r <==> e in store && e.runId == runId
    ensures forall e :: multiset(r)[e] == (if e.runId == runId then multiset(store)[e] else 0)
  {
    var r := SortRows(OfRun(store, runId));
    assert forall e :: e in r <==> e in multiset(r);
    assert forall e :: e in OfRun(store, runId) <==> e in multiset(OfRun(store, runId));
    r
  }

  const Header: seq<string> := ["Timestamp", "RunDate", "Batch", "Stage", "Master", "FilePath",
                                "Method", "Status", "Error", "DurationS", "RecipientsTo", "Subject"]

  /** A NULL column writes as an empty cell. */
  function DurationText(d: Option<int>): string {
    match d
    case None => ""
    case Some(n) => IntText(n)
  }

  /**
   * One exported line: the event's columns in header order. The numeric cells
   * read back as the numbers they came from, and a NULL duration is the only
   * empty duration cell.
   */
  function ExportRow(e: Event): (r: seq<string>)
    ensures |r| == |Header|
    ensures ParseInt(r[0]) == Some(e.timestamp as int) && ParseInt(r[1]) == Some(e.runDate as int)
    ensures r[9] == "" <==> e.durationS.None?
    ensures e.durationS.Some? ==> ParseInt(r[9]) == e.durationS
  {
    var r := [NatText(e.timestamp), NatText(e.runDate), e.batch, e.stage, e.masterPath, e.filePath,
              e.methodTag, e.status, e.errorText, DurationText(e.durationS), e.recipientsTo, e.subject];
    ParseIntText(e.timestamp);
    ParseIntText(e.runDate);
    if e.durationS.Some? then
      ParseIntText(e.durationS.value);
      r
    else r
  }

  function ExportRows(es: seq<Event>): (r: seq<seq<string>>)
    ensures |r| == |es|
    ensures forall i :: 0 <= i < |es| ==> r[i] == ExportRow(es[i])
  {
    if |es| == 0 then [] else [ExportRow(es[0])] + ExportRows(es[1..])
  }

  /** The CSV `export_email_csv` writes: the header line, then one line per exported event. */
  function ExportTable(store: seq<Event>, runId: string): (r: seq<seq<string>>)
    ensures |r| == 1 + |OfRun(store, runId)|
    ensures r[0] == Header
    ensures forall i :: 1 <= i < |r| ==> |r[i]| == |Header|
    ensures |r| == 1 + |ExportEvents(store, runId)|
    ensures forall i :: 1 <= i < |r| ==> r[i] == ExportRow(ExportEvents(store, runId)[i - 1])
  {
    var es := ExportEvents(store, runId);
    var body := ExportRows(es);
    ExportedCount(store, runId);
    BelowHeader(body);
    [Header] + body
  }

  lemma BelowHeader(body: seq<seq<string>>)
    ensures forall i :: 1 <= i < |[Header] + body| ==> ([Header] + body)[i] == body[i - 1]
  {
  }

  lemma ExportedCount(store: seq<Event>, runId: string)
    ensures |ExportEvents(store, runId)| == |OfRun(store, runId)|
  {
    var es := ExportEvents(store, runId);
    assert |multiset(es)| == |multiset(OfRun(store, runId))|;
  }

  /** Rows appended by other runs never show up in, or reorder, a run's export. */
  lemma ExportIgnoresOtherRuns(store: seq<Event>, more: seq<Event>, runId: string)
    requires forall i :: 0 <= i < |more| ==> more[i].runId != runId
    ensures ExportTable(store + more, runId) == ExportTable(store, runId)
  {
    OfRunAppend(store, more, runId);
  }

  lemma {:induction false} OfRunAppend(store: seq<Event>, more: seq<Event>, runId: string)
    requires forall i :: 0 <= i < |more| ==> more[i].runId != runId
    ensures OfRun(store + more, runId) == OfRun(store, runId)
  {
    if |store| == 0 {
      assert store + more == more;
      OfRunNone(more, runId);
    } else {
      assert (store + more)[1..] == store[1..] + more;
      OfRunAppend(store[1..], more, runId);
    }
  }

  lemma {:induction false} OfRunNone(s: seq<Event>, runId: string)
    requires forall i :: 0 <= i < |s| ==> s[i].runId != runId
    ensures OfRun(s, runId) == []
  {
    if |s| > 0 {
      OfRunNone(s[1..], runId);
    }
  }
}

=== FILE: gate.dfy ===
/**
 * The eligibility gate of the current, DB-backed runner
 * (Scripts/send_reports_configured.py): `process_single_email` for one row and
 * the result counting of `main`. Rows are processed one after the other, each
 * seeing the rows earlier ones appended (the default pool has one worker).
 */
module Gate {
  import opened Base
  import opened Text
  import opened Addresses
  import opened Conn
  import opened Audit
  import opened Dispatch
  import opened Store
  import opened Export

  /**
   * The run's settings. `fallbackHours` is accepted but read by nothing, as in
   * the source; `conn` is the REPORTLOGS_CONN text.
   */
  datatype Config = Config(
    runId: string,
    batch: string,
    runDate: Day,
    masterPath: string,
    requireMethodEmail: bool,
    dryRun: bool,
    forceResend: bool,
    fallbackHours: int,
    conn: string)

  /** What the world answers one worker: the DB server's refusal if any, the SMTP outcome, the clock. */
  datatype Env = Env(serverError: Option<string>, send: SendOutcome, timestamp: nat)

  /** `db_connect()`: the connection text must parse and the server must accept. */
  function Connect(cfg: Config, env: Env): Result<ConnParams> {
    match ParseConnEnv(cfg.conn)
    case Failure(e) => Failure(e)
    case Success(params) =>
      if env.serverError.Some? then Failure(env.serverError.value) else Success(params)
  }

  predicate FieldsPresent(row: Row) {
    ToNorm(row) != "" && SubjectOf(row) != ""
  }

  /**
   * An attachment passes the strict freshness check: the file exists, it was
   * refreshed on the run date and never on a later date, and (when required) a
   * refresh on the run date was made by the "email" method.
   */
  predicate Fresh(cfg: Config, files: set<string>, store: seq<Event>, p: string) {
    && p in files
    && LatestIs(store, p, cfg.runDate)
    && (cfg.requireMethodEmail ==> RefreshMethodEmailOn(store, p, cfg.runDate))
  }

  predicate AllFresh(cfg: Config, files: set<string>, store: seq<Event>, atts: seq<string>) {
    forall i :: 0 <= i < |atts| ==> Fresh(cfg, files, store, atts[i])
  }

  /** The attachments that fail the freshness check, in order. */
  function StalePaths(cfg: Config, files: set<string>, store: seq<Event>, atts: seq<string>): seq<string> {
    StaleBy(p => Fresh(cfg, files, store, p), atts)
  }

  /** The body of the freshness loop for one attachment: at most one problem, for that attachment. */
  function CheckAttachment(cfg: Config, files: set<string>, store: seq<Event>, p: string): (r: Option<Problem>)
    ensures r.None? <==> Fresh(cfg, files, store, p)
    ensures r.Some? ==> r.value.path == p
    ensures r == Some(MissingFile(p)) <==> p !in files
    ensures r == Some(NoRefreshInDatabase(p)) <==>
      p in files && !RefreshedEver(store, p)
    ensures r.Some? && r.value.NotRefreshedFor? <==>
      p in files && RefreshedEver(store, p) && !LatestIs(store, p, cfg.runDate)
    ensures r.Some? && r.value.NotRefreshedFor? ==>
      r.value.runDate == cfg.runDate && r.value.last != cfg.runDate && LatestIs(store, p, r.value.last)
    ensures r == Some(MethodNotEmailForToday(p)) <==>
      && p in files && LatestIs(store, p, cfg.runDate)
      && cfg.requireMethodEmail && !RefreshMethodEmailOn(store, p, cfg.runDate)
  {
    LatestIsDay(store, p, cfg.runDate);
    LatestIsDay(store, p, LatestRefreshDate(store, p).GetOr(0));
    if p !in files then Some(MissingFile(p))
    else match LatestRefreshDate(store, p)
      case None => Some(NoRefreshInDatabase(p))
      case Some(last) =>
        if last != cfg.runDate then Some(NotRefreshedFor(cfg.runDate, last, p))
        else if cfg.requireMethodEmail && !RefreshMethodEmailOn(store, p, cfg.runDate) then
          Some(MethodNotEmailForToday(p))
        else None
  }

  /** Every attachment is examined; the problems name exactly the stale ones, in order, each as its check reports it. */
  function Problems(cfg: Config, files: set<string>, store: seq<Event>, atts: seq<string>): (r: seq<Problem>)
    ensures PathsOf(r) == StalePaths(cfg, files, store, atts)
    ensures r == [] <==> AllFresh(cfg, files, store, atts)
    ensures forall i :: 0 <= i < |r| ==> CheckAttachment(cfg, files, store, r[i].path) == Some(r[i])
  {
    ProblemsBy(p => CheckAttachment(cfg, files, store, p), p => Fresh(cfg, files, store, p), atts)
  }

  function Last(s: seq<string>): string
    requires |s| > 0
  {
    s[|s| - 1]
  }

  /**
   * The verdict of the checks in `process_single_email`. `PathUnbound` is the
   * duplicate query reached with no attachment, where `fp_str` was never bound.
   */
  datatype Decision =
    | MissingReceiver
    | MissingSubject
    | Stale(problems: seq<Problem>)
    | AlreadySent
    | PathUnbound
    | Eligible

  /**
   * Receiver, then subject, then (unless forced) freshness of every attachment,
   * then (unless forced) the duplicate query against the LAST attachment's path.
   */
  function Decide(cfg: Config, files: set<string>, store: seq<Event>, row: Row): (d: Decision)
    ensures d == MissingReceiver <==> ToNorm(row) == ""
    ensures d == MissingSubject <==> ToNorm(row) != "" && SubjectOf(row) == ""
    ensures d.Stale? <==>
      FieldsPresent(row) && !cfg.forceResend && !AllFresh(cfg, files, store, Attachments(row))
    ensures d.Stale? ==> d.problems != [] && PathsOf(d.problems) == StalePaths(cfg, files, store, Attachments(row))
    ensures d.Stale? ==>
      forall i :: 0 <= i < |d.problems| ==> CheckAttachment(cfg, files, store, d.problems[i].path) == Some(d.problems[i])
    ensures d == PathUnbound <==> FieldsPresent(row) && !cfg.forceResend && Attachments(row) == []
    ensures d == AlreadySent <==>
      && FieldsPresent(row) && !cfg.forceResend
      && AllFresh(cfg, files, store, Attachments(row)) && Attachments(row) != []
      && AlreadyEmailedOk(store, ToNorm(row), SubjectOf(row), cfg.runDate, cfg.batch, Last(Attachments(row)))
    ensures d == Eligible <==>
      && FieldsPresent(row)
      && (|| cfg.forceResend
          || (&& AllFresh(cfg, files, store, Attachments(row)) && Attachments(row) != []
              && !AlreadyEmailedOk(store, ToNorm(row), SubjectOf(row), cfg.runDate, cfg.batch, Last(Attachments(row)))))
  {
    var atts := Attachments(row);
    if ToNorm(row) == "" then MissingReceiver
    else if SubjectOf(row) == "" then MissingSubject
    else if cfg.forceResend then Eligible
    else
      var problems := Problems(cfg, files, store, atts);
      if problems != [] then Stale(problems)
      else if |atts| == 0 then PathUnbound
      else if AlreadyEmailedOk(store, ToNorm(row), SubjectOf(row), cfg.runDate, cfg.batch, Last(atts)) then AlreadySent
      else Eligible
  }

  /** What one worker hands back to `main`: its result dictionary, or the exception it raised. */
  datatype Outcome =
    | Returned(status: Status, error: string, sent: bool, written: seq<Event>)
    | Raised(message: string)

  /** How `main` counts an outcome: an exception counts as FAIL. */
  function StatusOf(o: Outcome): Status {
    if o.Raised? then Status.FAIL else o.status
  }

  function Written(o: Outcome): seq<Event> {
    if o.Raised? then [] else o.written
  }

  /** The attachment `open(p, "rb")` fails on first, when building the message. */
  function FirstMissing(atts: seq<string>, files: set<string>): (r: Option<string>)
    ensures r.None? <==> forall i :: 0 <= i < |atts| ==> atts[i] in files
  {
    if |atts| == 0 then None
    else if atts[0] !in files then Some(atts[0])
    else
      assert forall i :: 1 <= i < |atts| ==> atts[i] == atts[1..][i - 1];
      FirstMissing(atts[1..], files)
  }

  /**
   * The text of the `UnboundLocalError` raised when `fp_str` was never bound,
   * in the wording of Python 3.11 and later; earlier versions word it
   * differently. The text only reaches `write_log`, so it decides nothing.
   */
  const UnboundMessage := "cannot access local variable 'fp_str' where it is not associated with a value"

  /**
   * The text of the `FileNotFoundError` opening a missing attachment raises.
   * Python quotes the path with `repr`, which also escapes backslashes and
   * quotes inside it; this text only wraps the path in quotes. It only
   * reaches `write_log`, so it decides nothing.
   */
  function NoSuchFileMessage(p: string): string {
    "[Errno 2] No such file or directory: '" + p + "'"
  }

  function Record(cfg: Config, env: Env, store: seq<Event>, row: Row, to: string, subject: string,
                  status: Status, error: string): seq<Event> {
    [EmailEvent(store, cfg.runId, cfg.batch, cfg.runDate, cfg.masterPath, Attachments(row),
                to, subject, status, error, env.timestamp)]
  }

  /** The OK row a delivery writes: it carries the row's recipients, subject and joined paths. */
  predicate RecordsDelivery(cfg: Config, row: Row, e: Event) {
    && e.stage == EmailStage && e.status == Status.OK.Text()
    && e.runDate == cfg.runDate && e.batch == cfg.batch
    && e.recipientsTo == ToNorm(row) && e.subject == SubjectOf(row)
    && e.filePath == Join(Attachments(row), ";")
  }

  /** `process_single_email` for one row against the table as it stands. */
  function Work(cfg: Config, files: set<string>, env: Env, store: seq<Event>, row: Row): (o: Outcome)
    ensures Connect(cfg, env).Failure? ==>
      o == Returned(Status.FAIL, "DB connection failed: " + Connect(cfg, env).error, false, [])
    ensures Connect(cfg, env).Success? && o.Returned? ==>
      && |o.written| == 1
      && o.written[0].stage == EmailStage && o.written[0].methodTag == EmailStage
      && o.written[0].status == o.status.Text()
      && o.written[0].filePath == Join(Attachments(row), ";")
      && o.written[0].runId == cfg.runId && o.written[0].batch == cfg.batch
      && o.written[0].runDate == cfg.runDate
    ensures o.Raised? <==>
      Connect(cfg, env).Success? &&
      (|| Decide(cfg, files, store, row) == PathUnbound
       || (&& Decide(cfg, files, store, row) == Eligible
           && (!HeadersAccepted(row) || FirstMissing(Attachments(row), files).Some?)))
    ensures Connect(cfg, env).Success? && Decide(cfg, files, store, row) == Eligible && !HeadersAccepted(row) ==>
      o == Raised(HeaderRefused)
    ensures o.Returned? ==>
      (o.sent <==> Connect(cfg, env).Success? && Decide(cfg, files, store, row) == Eligible && !cfg.dryRun)
    ensures o.Returned? ==> (o.status == Status.OK <==> o.sent && env.send == Delivered)
    ensures o.Returned? && o.status == Status.OK ==>
      && o.error == (if cfg.forceResend then "OK (FORCED)" else "OK")
      && RecordsDelivery(cfg, row, o.written[0])
    ensures o.Returned? && o.sent && env.send.SendError? ==> o.status == Status.FAIL && o.error == env.send.message
    ensures Connect(cfg, env).Success? && Decide(cfg, files, store, row) == MissingReceiver ==>
      o.status == Status.FAIL && o.error == "Missing Receiver" && o.written[0].recipientsTo == ""
    ensures Connect(cfg, env).Success? && Decide(cfg, files, store, row) == MissingSubject ==>
      o.status == Status.FAIL && o.error == "Missing Subject" && o.written[0].subject == ""
    ensures Connect(cfg, env).Success? && Decide(cfg, files, store, row).Stale? ==>
      o.status == Status.FAIL && o.error == ProblemText(Decide(cfg, files, store, row).problems)
    ensures Connect(cfg, env).Success? && Decide(cfg, files, store, row) == AlreadySent ==>
      && o.status == Status.SKIP && !o.sent && o.error == "Already emailed for this run"
      && o.written[0].errorText ==
           "Already emailed for this run (rundate=" + DayText(cfg.runDate) + ", batch=" + cfg.batch + ")"
    ensures Connect(cfg, env).Success? && o.Returned? && Decide(cfg, files, store, row) != AlreadySent ==>
      o.written[0].errorText == o.error
    ensures Connect(cfg, env).Success? && Decide(cfg, files, store, row) == Eligible && cfg.dryRun
            && HeadersAccepted(row) && FirstMissing(Attachments(row), files).None? ==>
      o.Returned? && o.status == Status.SKIP && o.error == "DRYRUN" && !o.sent
    ensures o.Returned? && o.status == Status.SKIP && o.error == "DRYRUN" ==> cfg.dryRun && !o.sent
  {
    match Connect(cfg, env)
    case Failure(e) => Returned(Status.FAIL, "DB connection failed: " + e, false, [])
    case Success(_) =>
      var toNorm := ToNorm(row);
      var subject := SubjectOf(row);
      match Decide(cfg, files, store, row)
      case MissingReceiver =>
        Returned(Status.FAIL, "Missing Receiver", false,
                 Record(cfg, env, store, row, "", subject, Status.FAIL, "Missing Receiver"))
      case MissingSubject =>
        Returned(Status.FAIL, "Missing Subject", false,
                 Record(cfg, env, store, row, toNorm, "", Status.FAIL, "Missing Subject"))
      case Stale(ps) =>
        Returned(Status.FAIL, ProblemText(ps), false,
                 Record(cfg, env, store, row, toNorm, subject, Status.FAIL, ProblemText(ps)))
      case AlreadySent =>
        var note := "Already emailed for this run (rundate=" + DayText(cfg.runDate) + ", batch=" + cfg.batch + ")";
        Returned(Status.SKIP, "Already emailed for this run", false,
                 Record(cfg, env, store, row, toNorm, subject, Status.SKIP, note))
      case PathUnbound => Raised(UnboundMessage)
      case Eligible =>
        if !HeadersAccepted(row) then Raised(HeaderRefused)
        else match FirstMissing(Attachments(row), files)
        case Some(p) => Raised(NoSuchFileMessage(p))
        case None =>
          if cfg.dryRun then
            Returned(Status.SKIP, "DRYRUN", false,
                     Record(cfg, env, store, row, toNorm, subject, Status.SKIP, "DRYRUN"))
          else match env.send
            case Delivered =>
              var note := if cfg.forceResend then "OK (FORCED)" else "OK";
              Returned(Status.OK, note, true, Record(cfg, env, store, row, toNorm, subject, Status.OK, note))
            case SendError(msg) =>
              Returned(Status.FAIL, msg, true, Record(cfg, env, store, row, toNorm, subject, Status.FAIL, msg))
  }

  /** A worker as the batch sees it: it appends at most one Email row. */
  function Step(cfg: Config, files: set<string>, env: Env, store: seq<Event>, row: Row): (o: Outcome)
    ensures o == Work(cfg, files, env, store, row)
    ensures |Written(o)| <= 1 && OnlyEmailRows(Written(o))
  {
    var o := Work(cfg, files, env, store, row);
    AtMostOneEmailRow(o, Connect(cfg, env).Success?);
    o
  }

  lemma AtMostOneEmailRow(o: Outcome, connected: bool)
    requires !connected ==> o.Returned? && o.written == []
    requires connected && o.Returned? ==> |o.written| == 1 && o.written[0].stage == EmailStage
    ensures |Written(o)| <= 1 && OnlyEmailRows(Written(o))
  {
  }

  /** The number of outcomes `main` counts under `s`. */
  function CountStatus(os: seq<Outcome>, s: Status): nat {
    if |os| == 0 then 0
    else CountStatus(os[..|os| - 1], s) + (if StatusOf(os[|os| - 1]) == s then 1 else 0)
  }

  /** The three counters agree with the outcomes they were bumped for. */
  predicate Tallies(sum: Summary, outs: seq<Outcome>) {
    && sum.ok == CountStatus(outs, Status.OK)
    && sum.fail == CountStatus(outs, Status.FAIL)
    && sum.skip == CountStatus(outs, Status.SKIP)
  }

  lemma TalliesSnoc(sum: Summary, outs: seq<Outcome>, o: Outcome)
    requires Tallies(sum, outs)
    ensures Tallies(sum.Count(StatusOf(o)), outs + [o])
  {
    CountedOnce(sum, outs, o, Status.OK);
    CountedOnce(sum, outs, o, Status.FAIL);
    CountedOnce(sum, outs, o, Status.SKIP);
  }

  /** Bumping the outcome's own counter keeps counter `s` in step with the outcomes. */
  lemma CountedOnce(sum: Summary, outs: seq<Outcome>, o: Outcome, s: Status)
    requires sum.Of(s) == CountStatus(outs, s)
    ensures sum.Count(StatusOf(o)).Of(s) == CountStatus(outs + [o], s)
  {
    var all := outs + [o];
    assert all[..|all| - 1] == outs && all[|all| - 1] == o;
    CountStatusSnoc(all, s);
  }

  lemma CountStatusSnoc(os: seq<Outcome>, s: Status)
    requires |os| > 0
    ensures CountStatus(os, s) == CountStatus(os[..|os| - 1], s) + (if StatusOf(os[|os| - 1]) == s then 1 else 0)
  {
  }

  lemma GrowsByEmailRows(store: seq<Event>, mid: seq<Event>, w: seq<Event>)
    requires Extends(store, mid) && OnlyEmailRows(mid[|store|..]) && OnlyEmailRows(w)
    ensures Extends(store, mid + w) && OnlyEmailRows((mid + w)[|store|..])
  {
    assert (mid + w)[..|store|] == mid[..|store|];
    assert (mid + w)[|store|..] == mid[|store|..] + w;
  }

  datatype BatchState = BatchState(store: seq<Event>, summary: Summary, outcomes: seq<Outcome>)

  /** The rows the outcomes wrote, in order. */
  function WrittenAll(os: seq<Outcome>): seq<Event> {
    if |os| == 0 then [] else WrittenAll(os[..|os| - 1]) + Written(os[|os| - 1])
  }

  /**
   * Each of `outs` is what its row's worker returns, run with the row's own
   * world against the table as the workers of the rows before it left it.
   */
  predicate SeesEarlier(cfg: Config, files: set<string>, store: seq<Event>, rows: seq<Row>, envs: seq<Env>,
                        outs: seq<Outcome>)
    requires |outs| <= |rows| && |envs| == |rows|
    decreases |outs|
  {
    || |outs| == 0
    || var n := |outs| - 1;
       && SeesEarlier(cfg, files, store, rows, envs, outs[..n])
       && outs[n] == Step(cfg, files, envs[n], store + WrittenAll(outs[..n]), rows[n])
  }

  /** Rows beyond the outcomes do not matter to `SeesEarlier`. */
  lemma {:induction false} SeesEarlierRows(cfg: Config, files: set<string>, store: seq<Event>, rows: seq<Row>,
                                           envs: seq<Env>, m: nat, outs: seq<Outcome>)
    requires |outs| <= m <= |rows| && |envs| == |rows|
    ensures SeesEarlier(cfg, files, store, rows[..m], envs[..m], outs) == SeesEarlier(cfg, files, store, rows, envs, outs)
  {
    if |outs| > 0 {
      var n := |outs| - 1;
      SeesEarlierRows(cfg, files, store, rows, envs, m, outs[..n]);
      assert rows[..m][n] == rows[n] && envs[..m][n] == envs[n];
    }
  }

  /** `SeesEarlier`, read off at one row. */
  lemma {:induction false} SeesEarlierAt(cfg: Config, files: set<string>, store: seq<Event>, rows: seq<Row>,
                                         envs: seq<Env>, outs: seq<Outcome>, k: nat)
    requires |outs| <= |rows| && |envs| == |rows| && k < |outs|
    requires SeesEarlier(cfg, files, store, rows, envs, outs)
    ensures outs[k] == Step(cfg, files, envs[k], store + WrittenAll(outs[..k]), rows[k])
  {
    var n := |outs| - 1;
    if k < n {
      SeesEarlierAt(cfg, files, store, rows, envs, outs[..n], k);
      StepSeenInPrefix(cfg, files, store, rows, envs, outs, n, k);
    } else {
      assert k == n;
    }
  }

  lemma StepSeenInPrefix(cfg: Config, files: set<string>, store: seq<Event>, rows: seq<Row>, envs: seq<Env>,
                         outs: seq<Outcome>, n: nat, k: nat)
    requires k < n <= |outs| <= |rows| && |envs| == |rows|
    requires outs[..n][k] == Step(cfg, files, envs[k], store + WrittenAll(outs[..n][..k]), rows[k])
    ensures outs[k] == Step(cfg, files, envs[k], store + WrittenAll(outs[..k]), rows[k])
  {
    assert outs[..n][k] == outs[k];
    assert outs[..n][..k] == outs[..k];
  }

  lemma WrittenAllSnoc(os: seq<Outcome>, o: Outcome)
    ensures WrittenAll(os + [o]) == WrittenAll(os) + Written(o)
  {
    assert (os + [o])[..|os|] == os;
  }

  /** The rows in order, each worker seeing what the earlier ones appended, each result counted once. */
  function RunBatch(cfg: Config, files: set<string>, store: seq<Event>, rows: seq<Row>, envs: seq<Env>): (r: BatchState)
    requires |envs| == |rows|
    ensures |r.outcomes| == |rows|
    ensures r.summary.Total() == |rows|
    ensures Tallies(r.summary, r.outcomes)
    ensures Extends(store, r.store) && OnlyEmailRows(r.store[|store|..])
    ensures |r.store| <= |store| + |rows|
    ensures r.store == store + WrittenAll(r.outcomes)
    ensures SeesEarlier(cfg, files, store, rows, envs, r.outcomes)
  {
    if |rows| == 0 then
      BatchStart(store);
      BatchState(store, Summary(0, 0, 0), [])
    else
      var n := |rows| - 1;
      var prev := RunBatch(cfg, files, store, rows[..n], envs[..n]);
      var o := Step(cfg, files, envs[n], prev.store, rows[n]);
      BatchStepCounts(prev, o);
      BatchStepGrows(store, prev, o);
      SeesEarlierExtend(cfg, files, store, rows, envs, prev.outcomes, o);
      BatchState(prev.store + Written(o), prev.summary.Count(StatusOf(o)), prev.outcomes + [o])
  }

  /** An empty batch keeps the table and counts nothing. */
  lemma BatchStart(store: seq<Event>)
    ensures Tallies(Summary(0, 0, 0), [])
    ensures Extends(store, store) && OnlyEmailRows(store[|store|..])
    ensures store == store + WrittenAll([])
  {
    assert store[|store|..] == [];
  }

  /** One more outcome keeps the batch's counting promises. */
  lemma BatchStepCounts(prev: BatchState, o: Outcome)
    requires prev.summary.Total() == |prev.outcomes| && Tallies(prev.summary, prev.outcomes)
    ensures prev.summary.Count(StatusOf(o)).Total() == |prev.outcomes + [o]|
    ensures Tallies(prev.summary.Count(StatusOf(o)), prev.outcomes + [o])
  {
    TalliesSnoc(prev.summary, prev.outcomes, o);
  }

  /** One more outcome keeps the batch's growth promises. */
  lemma BatchStepGrows(store: seq<Event>, prev: BatchState, o: Outcome)
    requires Extends(store, prev.store) && OnlyEmailRows(prev.store[|store|..])
    requires |prev.store| <= |store| + |prev.outcomes| && prev.store == store + WrittenAll(prev.outcomes)
    requires |Written(o)| <= 1 && OnlyEmailRows(Written(o))
    ensures Extends(store, prev.store + Written(o)) && OnlyEmailRows((prev.store + Written(o))[|store|..])
    ensures |prev.store + Written(o)| <= |store| + |prev.outcomes + [o]|
    ensures prev.store + Written(o) == store + WrittenAll(prev.outcomes + [o])
  {
    GrowsByEmailRows(store, prev.store, Written(o));
    WrittenAllSnoc(prev.outcomes, o);
  }

  lemma SeesEarlierExtend(cfg: Config, files: set<string>, store: seq<Event>, rows: seq<Row>, envs: seq<Env>,
                          outs: seq<Outcome>, o: Outcome)
    requires |envs| == |rows| && |outs| + 1 == |rows|
    requires SeesEarlier(cfg, files, store, rows[..|outs|], envs[..|outs|], outs)
    requires o == Step(cfg, files, envs[|outs|], store + WrittenAll(outs), rows[|outs|])
    ensures SeesEarlier(cfg, files, store, rows, envs, outs + [o])
  {
    SeesEarlierRows(cfg, files, store, rows, envs, |outs|, outs);
    assert (outs + [o])[..|outs|] == outs;
  }

  /**
   * Row `k`'s worker runs against the table as the workers of rows `0..k-1`
   * left it, with row `k`'s own world.
   */
  lemma RunBatchSees(cfg: Config, files: set<string>, store: seq<Event>, rows: seq<Row>, envs: seq<Env>, k: nat)
    requires |envs| == |rows| && k < |rows|
    ensures var outs := RunBatch(cfg, files, store, rows, envs).outcomes;
      outs[k] == Step(cfg, files, envs[k], store + WrittenAll(outs[..k]), rows[k])
  {
    SeesEarlierAt(cfg, files, store, rows, envs, RunBatch(cfg, files, store, rows, envs).outcomes, k);
  }

  const RequiredColumns: set<string> := {"Receiver", "CC", "BCC", "Subject", "Attachement Path"}

  datatype Report = Report(exitCode: int, store: seq<Event>, summary: Summary, table: seq<seq<string>>)

  /**
   * `main` once the run date is known: missing credentials or a missing column
   * end the run with 2 before anything is written; otherwise the batch runs, the
   * run is exported, and the exit code is 0 iff nothing failed.
   */
  function Main(credentialsSet: bool, columns: set<string>, cfg: Config, files: set<string>,
                store: seq<Event>, rows: seq<Row>, envs: seq<Env>): (r: Report)
    requires |envs| == |rows|
    ensures !credentialsSet || !(RequiredColumns <= columns) ==> r.exitCode == 2 && r.store == store
    ensures credentialsSet && RequiredColumns <= columns ==>
      && (r.exitCode == 0 <==> r.summary.fail == 0)
      && (r.exitCode == 0 || r.exitCode == 1)
      && r.summary.Total() == |rows|
      && Extends(store, r.store)
      && r.table == ExportTable(r.store, cfg.runId)
      && r.summary == RunBatch(cfg, files, store, rows, envs).summary
      && r.store == RunBatch(cfg, files, store, rows, envs).store
  {
    if !credentialsSet || !(RequiredColumns <= columns) then Report(2, store, Summary(0, 0, 0), [])
    else
      var b := RunBatch(cfg, files, store, rows, envs);
      Report(ExitCode(b.summary), b.store, b.summary, ExportTable(b.store, cfg.runId))
  }

  /** Rows that are not Refresh rows leave every attachment's freshness as it was. */
  lemma {:induction false} FreshAppend(cfg: Config, files: set<string>, store: seq<Event>, added: seq<Event>, p: string)
    requires forall i :: 0 <= i < |added| ==> added[i].stage != RefreshStage
    ensures Fresh(cfg, files, store + added, p) <==> Fresh(cfg, files, store, p)
  {
    AppendNonRefresh(store, added, p);
    AppendNonRefreshMethod(store, added, p, cfg.runDate);
    var a := CheckAttachment(cfg, files, store, p);
    var b := CheckAttachment(cfg, files, store + added, p);
    assert a.None? <==> b.None?;
  }

  /** Appending one Email row and then non-refresh rows keeps every attachment as fresh as it was. */
  lemma {:induction false} FreshAfterDelivery(cfg: Config, files: set<string>, store: seq<Event>, e: Event,
                                             more: seq<Event>, atts: seq<string>)
    requires e.stage == EmailStage
    requires forall i :: 0 <= i < |more| ==> more[i].stage != RefreshStage
    requires AllFresh(cfg, files, store, atts)
    ensures AllFresh(cfg, files, store + [e] + more, atts)
  {
    var added := [e] + more;
    assert store + [e] + more == store + added;
    forall i | 0 <= i < |added| ensures added[i].stage != RefreshStage {
      if i > 0 {
        assert added[i] == more[i - 1];
      }
    }
    forall i | 0 <= i < |atts| ensures Fresh(cfg, files, store + added, atts[i]) {
      FreshAppend(cfg, files, store, added, atts[i]);
    }
  }

  /**
   * Re-running a delivered single-attachment row, with only non-refresh rows
   * logged since, skips it: the OK row written by the first run answers the
   * duplicate query, and the attachment's freshness is unchanged.
   */
  lemma {:induction false} SecondRunSkips(cfg: Config, files: set<string>, store: seq<Event>,
                                         row: Row, e: Event, more: seq<Event>)
    requires Decide(cfg, files, store, row) == Eligible && !cfg.forceResend
    requires RecordsDelivery(cfg, row, e)
    requires |Attachments(row)| == 1
    requires forall i :: 0 <= i < |more| ==> more[i].stage != RefreshStage
    ensures Decide(cfg, files, store + [e] + more, row) == AlreadySent
  {
    var atts := Attachments(row);
    var after := store + [e] + more;
    FreshAfterDelivery(cfg, files, store, e, more, atts);
    assert after[|store|] == e;
    assert Join(atts, ";") == Last(atts);
    assert IsEmailOkFor(after[|store|], ToNorm(row), SubjectOf(row), cfg.runDate, cfg.batch, Last(atts));
  }

  /** The OK row of a multi-attachment delivery never answers that row's own duplicate query. */
  lemma JoinedPathNeverMatches(cfg: Config, row: Row, e: Event)
    requires RecordsDelivery(cfg, row, e)
    requires |Attachments(row)| >= 2
    ensures !IsEmailOkFor(e, ToNorm(row), SubjectOf(row), cfg.runDate, cfg.batch, Last(Attachments(row)))
  {
    JoinLongerThanLast(Attachments(row), ";");
    assert |PathKey(e.filePath)| != |PathKey(Last(Attachments(row)))|;
  }

  /**
   * A delivered row with two or more attachments is sent again by a later run:
   * its OK row stores the joined paths, while the duplicate query compares the
   * last path only, so the row never matches itself.
   */
  lemma {:induction false} MultiAttachmentResent(cfg: Config, files: set<string>, store: seq<Event>,
                                                row: Row, e: Event, more: seq<Event>)
    requires Decide(cfg, files, store, row) == Eligible && !cfg.forceResend
    requires RecordsDelivery(cfg, row, e)
    requires |Attachments(row)| >= 2
    requires forall i :: 0 <= i < |more| ==> more[i].stage != RefreshStage
    requires !AlreadyEmailedOk(more, ToNorm(row), SubjectOf(row), cfg.runDate, cfg.batch, Last(Attachments(row)))
    ensures Decide(cfg, files, store + [e] + more, row) == Eligible
  {
    var atts := Attachments(row);
    var after := store + [e] + more;
    FreshAfterDelivery(cfg, files, store, e, more, atts);
    JoinedPathNeverMatches(cfg, row, e);
    NoMatchAppend(store, e, more, ToNorm(row), SubjectOf(row), cfg.runDate, cfg.batch, Last(atts));
  }

  lemma NoMatchAppend(store: seq<Event>, e: Event, more: seq<Event>, toNorm: string, subject: string,
                      runDate: Day, batch: string, path: string)
    requires !AlreadyEmailedOk(store, toNorm, subject, runDate, batch, path)
    requires !IsEmailOkFor(e, toNorm, subject, runDate, batch, path)
    requires !AlreadyEmailedOk(more, toNorm, subject, runDate, batch, path)
    ensures !AlreadyEmailedOk(store + [e] + more, toNorm, subject, runDate, batch, path)
  {
    var after := store + [e] + more;
    forall i | 0 <= i < |after| ensures !IsEmailOkFor(after[i], toNorm, subject, runDate, batch, path) {
      if i < |store| {
        assert after[i] == store[i];
      } else if i == |store| {
        assert after[i] == e;
      } else {
        assert after[i] == more[i - |store| - 1];
      }
    }
  }
}

=== FILE: lenient.dfy ===
/**
 * The lenient, DB-backed revision (Scripts/temp.py): one connection for the
 * whole run, a sequential loop over the rows, and a freshness and duplicate
 * window of the run date and the day before. Every row the loop finishes
 * writes exactly one Email row; an exception in the loop body ends `main`.
 */
module Lenient {
  import opened Base
  import opened Text
  import opened Addresses
  import opened Conn
  import opened Audit
  import opened Dispatch
  import opened Store
  import opened Export
  import Gate

  datatype Config = Config(
    runId: string,
    batch: string,
    runDate: Day,
    masterPath: string,
    requireMethodEmail: bool,
    dryRun: bool,
    conn: string)

  /** What the world answers for one row: the SMTP outcome and the clock. */
  datatype Env = Env(send: SendOutcome, timestamp: nat)

  /** `rundate = %s OR rundate = %s` with the run date and the day before. */
  predicate InWindow(day: Day, runDate: Day) {
    day == runDate || day + 1 == runDate
  }

  /** `db_refresh_ok`: a successful refresh of `path` inside the window. */
  predicate RefreshOkWithin(store: seq<Event>, path: string, runDate: Day) {
    exists i :: 0 <= i < |store| && IsRefreshOk(store[i], path) && InWindow(store[i].runDate, runDate)
  }

  /** `db_refresh_method_email`: as above, made by the "email" method. */
  predicate RefreshMethodEmailWithin(store: seq<Event>, path: string, runDate: Day) {
    exists i :: 0 <= i < |store| && IsRefreshOk(store[i], path) && InWindow(store[i].runDate, runDate)
                && Lower(store[i].methodTag) == "email"
  }

  /** The row filter of `db_already_emailed_ok`: recipients and subject only, no batch and no path. */
  predicate IsSentWithin(e: Event, toNorm: string, subject: string, runDate: Day) {
    && e.stage == EmailStage && e.status == "OK"
    && InWindow(e.runDate, runDate)
    && Lower(e.recipientsTo) == Lower(toNorm)
    && Lower(e.subject) == Lower(subject)
  }

  predicate AlreadySentWithin(store: seq<Event>, toNorm: string, subject: string, runDate: Day) {
    exists i :: 0 <= i < |store| && IsSentWithin(store[i], toNorm, subject, runDate)
  }

  /** An attachment passes the lenient check: it exists and was refreshed (by "email", when required) inside the window. */
  predicate Fresh(cfg: Config, files: set<string>, store: seq<Event>, p: string) {
    && p in files
    && RefreshOkWithin(store, p, cfg.runDate)
    && (cfg.requireMethodEmail ==> RefreshMethodEmailWithin(store, p, cfg.runDate))
  }

  predicate AllFresh(cfg: Config, files: set<string>, store: seq<Event>, atts: seq<string>) {
    forall i :: 0 <= i < |atts| ==> Fresh(cfg, files, store, atts[i])
  }

  /** The attachments that fail the lenient check, in order. */
  function StalePaths(cfg: Config, files: set<string>, store: seq<Event>, atts: seq<string>): seq<string> {
    StaleBy(p => Fresh(cfg, files, store, p), atts)
  }

  /** The body of temp.py's freshness loop for one attachment. */
  function CheckAttachment(cfg: Config, files: set<string>, store: seq<Event>, p: string): (r: Option<Problem>)
    ensures r.None? <==> Fresh(cfg, files, store, p)
    ensures r.Some? ==> r.value.path == p
    ensures r == Some(MissingFile(p)) <==> p !in files
    ensures r == Some(NoRefreshToday(p)) <==> p in files && !RefreshOkWithin(store, p, cfg.runDate)
    ensures r == Some(MethodNotEmailToday(p)) <==>
      && p in files && RefreshOkWithin(store, p, cfg.runDate)
      && cfg.requireMethodEmail && !RefreshMethodEmailWithin(store, p, cfg.runDate)
  {
    if p !in files then Some(MissingFile(p))
    else if !RefreshOkWithin(store, p, cfg.runDate) then Some(NoRefreshToday(p))
    else if cfg.requireMethodEmail && !RefreshMethodEmailWithin(store, p, cfg.runDate) then Some(MethodNotEmailToday(p))
    else None
  }

  /** The problems name exactly the attachments that fail, in order, each as its check reports it. */
  function Problems(cfg: Config, files: set<string>, store: seq<Event>, atts: seq<string>): (r: seq<Problem>)
    ensures PathsOf(r) == StalePaths(cfg, files, store, atts)
    ensures r == [] <==> AllFresh(cfg, files, store, atts)
    ensures forall i :: 0 <= i < |r| ==> CheckAttachment(cfg, files, store, r[i].path) == Some(r[i])
  {
    ProblemsBy(p => CheckAttachment(cfg, files, store, p), p => Fresh(cfg, files, store, p), atts)
  }

  datatype Decision = MissingReceiver | MissingSubject | AlreadySent | Stale(problems: seq<Problem>) | Eligible

  /**
   * Receiver, then subject, then the duplicate query, then freshness: a row
   * already sent inside the window is skipped before its files are looked at,
   * and a row without attachments passes.
   */
  function Decide(cfg: Config, files: set<string>, store: seq<Event>, row: Row): (d: Decision)
    ensures d == MissingReceiver <==> ToNorm(row) == ""
    ensures d == MissingSubject <==> ToNorm(row) != "" && SubjectOf(row) == ""
    ensures d == AlreadySent <==>
      Gate.FieldsPresent(row) && AlreadySentWithin(store, ToNorm(row), SubjectOf(row), cfg.runDate)
    ensures d.Stale? <==>
      && Gate.FieldsPresent(row) && !AlreadySentWithin(store, ToNorm(row), SubjectOf(row), cfg.runDate)
      && !AllFresh(cfg, files, store, Attachments(row))
    ensures d.Stale? ==> d.problems != [] && PathsOf(d.problems) == StalePaths(cfg, files, store, Attachments(row))
    ensures d.Stale? ==>
      forall i :: 0 <= i < |d.problems| ==> CheckAttachment(cfg, files, store, d.problems[i].path) == Some(d.problems[i])
    ensures d == Eligible <==>
      && Gate.FieldsPresent(row) && !AlreadySentWithin(store, ToNorm(row), SubjectOf(row), cfg.runDate)
      && AllFresh(cfg, files, store, Attachments(row))
  {
    if ToNorm(row) == "" then MissingReceiver
    else if SubjectOf(row) == "" then MissingSubject
    else if AlreadySentWithin(store, ToNorm(row), SubjectOf(row), cfg.runDate) then AlreadySent
    else
      var problems := Problems(cfg, files, store, Attachments(row));
      if problems != [] then Stale(problems) else Eligible
  }

  /** The outcome of one row and the Email row it wrote. */
  datatype RowResult = RowResult(status: Status, error: string, sent: bool, event: Event)

  /** One pass of the loop body: the row is finished, or an exception leaves `main`. */
  datatype Pass = Done(result: RowResult) | Aborted(message: string)

  /**
   * One pass of the loop body. An eligible row whose To, Cc or Subject value
   * spans lines makes the `EmailMessage` header assignment raise, before the
   * dry-run test; nothing catches it.
   */
  function Step(cfg: Config, files: set<string>, env: Env, store: seq<Event>, row: Row): (p: Pass)
    ensures p.Aborted? <==> Decide(cfg, files, store, row) == Eligible && !HeadersAccepted(row)
    ensures p.Aborted? ==> p.message == HeaderRefused
    ensures p.Done? ==>
      && p.result.event.stage == EmailStage && p.result.event.status == p.result.status.Text()
      && p.result.event.runId == cfg.runId && p.result.event.batch == cfg.batch
      && p.result.event.runDate == cfg.runDate
      && p.result.event.filePath == Join(Attachments(row), ";") && p.result.event.errorText == p.result.error
    ensures p.Done? ==> (p.result.sent <==> Decide(cfg, files, store, row) == Eligible && !cfg.dryRun)
    ensures p.Done? ==> (p.result.status == Status.OK <==> p.result.sent && env.send == Delivered)
    ensures p.Done? && p.result.status == Status.OK ==>
      p.result.error == "" && p.result.event.recipientsTo == ToNorm(row) && p.result.event.subject == SubjectOf(row)
    ensures p.Done? && p.result.sent && env.send.SendError? ==>
      p.result.status == Status.FAIL && p.result.error == env.send.message
    ensures Decide(cfg, files, store, row) == MissingReceiver ==>
      p.Done? && p.result.status == Status.FAIL && p.result.error == "Missing Receiver"
      && p.result.event.recipientsTo == ""
    ensures Decide(cfg, files, store, row) == MissingSubject ==>
      p.Done? && p.result.status == Status.FAIL && p.result.error == "Missing Subject"
      && p.result.event.subject == ""
    ensures Decide(cfg, files, store, row) == AlreadySent ==>
      p.Done? && p.result.status == Status.SKIP && p.result.error == "Already emailed (To+Subject)"
    ensures Decide(cfg, files, store, row).Stale? ==>
      && p.Done? && p.result.status == Status.FAIL
      && p.result.error == ProblemText(Decide(cfg, files, store, row).problems)
    ensures p.Done? && p.result.status == Status.SKIP && p.result.error == "DRYRUN" ==> cfg.dryRun && !p.result.sent
    ensures Decide(cfg, files, store, row) == Eligible && HeadersAccepted(row) && cfg.dryRun ==>
      p.Done? && p.result.status == Status.SKIP && p.result.error == "DRYRUN"
  {
    var toNorm := ToNorm(row);
    var subject := SubjectOf(row);
    var atts := Attachments(row);
    var d := Decide(cfg, files, store, row);
    if d == Eligible && !HeadersAccepted(row) then Aborted(HeaderRefused)
    else
      var (status, error, to, subj, sent) := match d
        case MissingReceiver => (Status.FAIL, "Missing Receiver", "", subject, false)
        case MissingSubject => (Status.FAIL, "Missing Subject", toNorm, "", false)
        case AlreadySent => (Status.SKIP, "Already emailed (To+Subject)", toNorm, subject, false)
        case Stale(ps) => (Status.FAIL, ProblemText(ps), toNorm, subject, false)
        case Eligible =>
          if cfg.dryRun then (Status.SKIP, "DRYRUN", toNorm, subject, false)
          else match env.send
            case Delivered => (Status.OK, "", toNorm, subject, true)
            case SendError(msg) => (Status.FAIL, msg, toNorm, subject, true);
      Done(RowResult(status, error, sent,
                     EmailEvent(store, cfg.runId, cfg.batch, cfg.runDate, cfg.masterPath, atts, to, subj, status, error,
                                env.timestamp)))
  }

  /** How many of `rs` finished with status `s`. */
  function StatusCount(rs: seq<RowResult>, s: Status): nat {
    if |rs| == 0 then 0
    else StatusCount(rs[..|rs| - 1], s) + (if rs[|rs| - 1].status == s then 1 else 0)
  }

  /** The per-status counters `main` keeps while it walks the rows. */
  function Tally(rs: seq<RowResult>): (s: Summary)
    ensures s.Total() == |rs|
  {
    if |rs| == 0 then Summary(0, 0, 0) else Tally(rs[..|rs| - 1]).Count(rs[|rs| - 1].status)
  }

  /** Each counter is the number of rows that finished with its status. */
  lemma {:induction false} TallyCounts(rs: seq<RowResult>, s: Status)
    ensures Tally(rs).Of(s) == StatusCount(rs, s)
  {
    if |rs| > 0 {
      TallyCounts(rs[..|rs| - 1], s);
    }
  }

  function EventsOf(rs: seq<RowResult>): (es: seq<Event>)
    ensures |es| == |rs|
    ensures forall k :: 0 <= k < |rs| ==> es[k] == rs[k].event
  {
    if |rs| == 0 then [] else EventsOf(rs[..|rs| - 1]) + [rs[|rs| - 1].event]
  }

  lemma EventsOfSnoc(rs: seq<RowResult>, r: RowResult)
    ensures EventsOf(rs + [r]) == EventsOf(rs) + [r.event]
  {
    assert (rs + [r])[..|rs|] == rs;
  }

  /** The loop as far as it got: the rows finished, in order, and the exception that ended it early, if any. */
  datatype Run = Run(results: seq<RowResult>, abort: Option<string>)

  /** The loop over the rows, in order; each row sees the rows written for the rows before it. */
  function Loop(cfg: Config, files: set<string>, store: seq<Event>, rows: seq<Row>, envs: seq<Env>): (r: Run)
    requires |envs| == |rows|
    ensures |r.results| <= |rows|
    ensures r.abort.None? <==> |r.results| == |rows|
    ensures forall k :: 0 <= k < |r.results| ==> r.results[k].event.stage == EmailStage
  {
    if |rows| == 0 then Run([], None)
    else
      var n := |rows| - 1;
      var prev := Loop(cfg, files, store, rows[..n], envs[..n]);
      if prev.abort.Some? then prev
      else match Step(cfg, files, envs[n], store + EventsOf(prev.results), rows[n])
        case Done(res) => Run(prev.results + [res], None)
        case Aborted(m) => Run(prev.results, Some(m))
  }

  /** Row `k`, once reached, is finished by the loop body run against the table as the rows before it left it. */
  lemma {:induction false} LoopSees(cfg: Config, files: set<string>, store: seq<Event>, rows: seq<Row>, envs: seq<Env>, k: nat)
    requires |envs| == |rows| && k < |Loop(cfg, files, store, rows, envs).results|
    ensures var rs := Loop(cfg, files, store, rows, envs).results;
      Step(cfg, files, envs[k], store + EventsOf(rs[..k]), rows[k]) == Done(rs[k])
  {
    var n := |rows| - 1;
    var prev := Loop(cfg, files, store, rows[..n], envs[..n]).results;
    var rs := Loop(cfg, files, store, rows, envs).results;
    LoopExtends(cfg, files, store, rows, envs);
    if k < |prev| {
      LoopSees(cfg, files, store, rows[..n], envs[..n], k);
      SeenInPrefix(cfg, files, store, rows, envs, n, prev, rs, k);
    } else {
      assert k == n;
      assert rs[..n] == prev;
    }
  }

  /** The loop over one more row keeps what it had and, if it goes on, adds that row's finished result. */
  lemma LoopExtends(cfg: Config, files: set<string>, store: seq<Event>, rows: seq<Row>, envs: seq<Env>)
    requires 0 < |rows| == |envs|
    ensures var n := |rows| - 1;
      var prev := Loop(cfg, files, store, rows[..n], envs[..n]).results;
      var rs := Loop(cfg, files, store, rows, envs).results;
      && |prev| <= |rs| && rs[..|prev|] == prev
      && (|prev| < |rs| ==>
            && |prev| == n && |rs| == n + 1
            && Step(cfg, files, envs[n], store + EventsOf(prev), rows[n]) == Done(rs[n]))
  {
    var n := |rows| - 1;
    var prev := Loop(cfg, files, store, rows[..n], envs[..n]).results;
    var rs := Loop(cfg, files, store, rows, envs).results;
    assert rs == prev || rs[..|prev|] == prev;
  }

  lemma SeenInPrefix(cfg: Config, files: set<string>, store: seq<Event>, rows: seq<Row>, envs: seq<Env>,
                     n: nat, prev: seq<RowResult>, rs: seq<RowResult>, k: nat)
    requires k < |prev| <= n < |rows| == |envs| && |prev| <= |rs| && rs[..|prev|] == prev
    requires Step(cfg, files, envs[..n][k], store + EventsOf(prev[..k]), rows[..n][k]) == Done(prev[k])
    ensures Step(cfg, files, envs[k], store + EventsOf(rs[..k]), rows[k]) == Done(rs[k])
  {
    assert rs[..k] == prev[..k] && rs[k] == prev[k];
    assert rows[..n][k] == rows[k] && envs[..n][k] == envs[k];
  }

  /** A run that ends early ends at the first row whose loop body raises, with that exception. */
  lemma {:induction false} LoopAborts(cfg: Config, files: set<string>, store: seq<Event>, rows: seq<Row>, envs: seq<Env>)
    requires |envs| == |rows|
    ensures var r := Loop(cfg, files, store, rows, envs);
      r.abort.Some? ==>
        Step(cfg, files, envs[|r.results|], store + EventsOf(r.results), rows[|r.results|]) == Aborted(r.abort.value)
  {
    if |rows| > 0 {
      var n := |rows| - 1;
      LoopAborts(cfg, files, store, rows[..n], envs[..n]);
      var prev := Loop(cfg, files, store, rows[..n], envs[..n]);
      var r := Loop(cfg, files, store, rows, envs);
      LoopStops(cfg, files, store, rows, envs, prev, r);
      if prev.abort.Some? {
        AbortSeenInPrefix(cfg, files, store, rows, envs, n, prev);
        assert r.results == prev.results && r.abort == prev.abort;
      } else if r.abort.Some? {
        assert |r.results| == n && r.results == prev.results;
      }
    }
  }

  /** An early end over one more row is the earlier run's, or that row's own exception. */
  lemma LoopStops(cfg: Config, files: set<string>, store: seq<Event>, rows: seq<Row>, envs: seq<Env>, prev: Run, r: Run)
    requires 0 < |rows| == |envs|
    requires prev == Loop(cfg, files, store, rows[..|rows| - 1], envs[..|rows| - 1])
    requires r == Loop(cfg, files, store, rows, envs)
    ensures prev.abort.Some? ==> r.results == prev.results && r.abort == prev.abort
    ensures prev.abort.None? && r.abort.Some? ==>
      && r.results == prev.results && |prev.results| == |rows| - 1
      && Step(cfg, files, envs[|rows| - 1], store + EventsOf(prev.results), rows[|rows| - 1]) == Aborted(r.abort.value)
  {
  }

  lemma AbortSeenInPrefix(cfg: Config, files: set<string>, store: seq<Event>, rows: seq<Row>, envs: seq<Env>,
                          n: nat, prev: Run)
    requires |prev.results| < n < |rows| == |envs| && prev.abort.Some?
    requires Step(cfg, files, envs[..n][|prev.results|], store + EventsOf(prev.results), rows[..n][|prev.results|])
             == Aborted(prev.abort.value)
    ensures Step(cfg, files, envs[|prev.results|], store + EventsOf(prev.results), rows[|prev.results|])
            == Aborted(prev.abort.value)
  {
    assert rows[..n][|prev.results|] == rows[|prev.results|] && envs[..n][|prev.results|] == envs[|prev.results|];
  }

  datatype Report = Report(exitCode: int, store: seq<Event>, summary: Summary, table: seq<seq<string>>)

  /**
   * `main` once the run date is known: missing credentials, a missing column or
   * a failed connection end the run with 2 before anything is written.
   * Otherwise every row reached writes one Email row. A run that completes
   * exports and exits 0 iff no row failed; one that an exception ends exits 1
   * with no export, keeping the rows written before it.
   */
  function Main(credentialsSet: bool, columns: set<string>, serverError: Option<string>, cfg: Config,
                files: set<string>, store: seq<Event>, rows: seq<Row>, envs: seq<Env>): (r: Report)
    requires |envs| == |rows|
    ensures (|| !credentialsSet || !(Gate.RequiredColumns <= columns)
             || ParseConnEnv(cfg.conn).Failure? || serverError.Some?) ==> r.exitCode == 2 && r.store == store
    ensures (&& credentialsSet && Gate.RequiredColumns <= columns
             && ParseConnEnv(cfg.conn).Success? && serverError.None?) ==>
      && Extends(store, r.store)
      && OnlyEmailRows(r.store[|store|..])
      && r.store == store + EventsOf(Loop(cfg, files, store, rows, envs).results)
      && r.summary == Tally(Loop(cfg, files, store, rows, envs).results)
      && (Loop(cfg, files, store, rows, envs).abort.None? ==>
            && |r.store| == |store| + |rows|
            && r.summary.Total() == |rows|
            && (r.exitCode == 0 <==> r.summary.fail == 0)
            && (r.exitCode == 0 || r.exitCode == 1)
            && r.table == ExportTable(r.store, cfg.runId))
      && (Loop(cfg, files, store, rows, envs).abort.Some? ==> r.exitCode == 1 && r.table == [])
  {
    if !credentialsSet || !(Gate.RequiredColumns <= columns) then Report(2, store, Summary(0, 0, 0), [])
    else if ParseConnEnv(cfg.conn).Failure? || serverError.Some? then Report(2, store, Summary(0, 0, 0), [])
    else
      var run := Loop(cfg, files, store, rows, envs);
      var after := store + EventsOf(run.results);
      assert after[..|store|] == store && after[|store|..] == EventsOf(run.results);
      assert OnlyEmailRows(EventsOf(run.results));
      var sum := Tally(run.results);
      if run.abort.Some? then Report(1, after, sum, [])
      else Report(ExitCode(sum), after, sum, ExportTable(after, cfg.runId))
  }

  /**
   * Once a row is delivered, any later row with the same recipients and
   * subject (compared without case), on the same run date or the next day, is
   * skipped, whatever was logged in between.
   */
  lemma {:induction false} SentSuppressesLater(cfg: Config, later: Config, files: set<string>, env: Env,
                                              store: seq<Event>, row: Row, more: seq<Event>, row2: Row)
    requires Step(cfg, files, env, store, row).Done? && Step(cfg, files, env, store, row).result.status == Status.OK
    requires later.runDate == cfg.runDate || later.runDate == cfg.runDate + 1
    requires SubjectOf(row2) != "" && ToNorm(row2) != ""
    requires Lower(ToNorm(row2)) == Lower(ToNorm(row)) && Lower(SubjectOf(row2)) == Lower(SubjectOf(row))
    ensures Decide(later, files, store + [Step(cfg, files, env, store, row).result.event] + more, row2) == AlreadySent
  {
    var e := Step(cfg, files, env, store, row).result.event;
    var after := store + [e] + more;
    assert after[|store|] == e;
    assert IsSentWithin(after[|store|], ToNorm(row2), SubjectOf(row2), later.runDate);
  }

  /**
   * Within one run, a row that repeats the recipients and subject (compared
   * without case) of an earlier delivered row is skipped.
   */
  lemma {:induction false} LaterDuplicateSkipped(cfg: Config, files: set<string>, store: seq<Event>,
                                                rows: seq<Row>, envs: seq<Env>, j: nat, k: nat)
    requires |envs| == |rows| && j < k < |Loop(cfg, files, store, rows, envs).results|
    requires Loop(cfg, files, store, rows, envs).results[j].status == Status.OK
    requires SubjectOf(rows[k]) != "" && ToNorm(rows[k]) != ""
    requires Lower(ToNorm(rows[k])) == Lower(ToNorm(rows[j])) && Lower(SubjectOf(rows[k])) == Lower(SubjectOf(rows[j]))
    ensures Loop(cfg, files, store, rows, envs).results[k].status == Status.SKIP
  {
    var rs := Loop(cfg, files, store, rows, envs).results;
    LoopSees(cfg, files, store, rows, envs, j);
    LoopSees(cfg, files, store, rows, envs, k);
    var seen := store + EventsOf(rs[..k]);
    assert seen[|store| + j] == rs[j].event;
    assert IsSentWithin(seen[|store| + j], ToNorm(rows[k]), SubjectOf(rows[k]), cfg.runDate);
    assert Decide(cfg, files, seen, rows[k]) == AlreadySent;
  }

  /** A file that passes the strict check of the current revision also passes the lenient one. */
  lemma StrictImpliesLenient(strict: Gate.Config, cfg: Config, files: set<string>, store: seq<Event>, p: string)
    requires strict.runDate == cfg.runDate && strict.requireMethodEmail == cfg.requireMethodEmail
    requires Gate.Fresh(strict, files, store, p)
    ensures Fresh(cfg, files, store, p)
  {
    var i :| 0 <= i < |store| && IsRefreshOk(store[i], p) && store[i].runDate == cfg.runDate;
    assert InWindow(store[i].runDate, cfg.runDate);
    if cfg.requireMethodEmail {
      var j :| 0 <= j < |store| && IsRefreshOk(store[j], p) && store[j].runDate == cfg.runDate
               && Lower(store[j].methodTag) == "email";
      assert InWindow(store[j].runDate, cfg.runDate);
    }
  }

  /** The converse fails: a refresh made only the day before passes the lenient check alone. */
  lemma LenientAcceptsYesterday(strict: Gate.Config, cfg: Config, e: Event, p: string)
    requires strict.runDate == cfg.runDate == e.runDate + 1 && !cfg.requireMethodEmail
    requires IsRefreshOk(e, p)
    ensures Fresh(cfg, {p}, [e], p)
    ensures !Gate.Fresh(strict, {p}, [e], p)
  {
    assert [e][0] == e;
    assert InWindow(e.runDate, cfg.runDate);
  }
}

=== FILE: store.dfy ===
/**
 * The audit-table queries of the current, DB-backed runner
 * (Scripts/send_reports_configured.py). Each SQL query is a filter, an
 * existence test or a maximum over the sequence of events.
 */
module Store {
  import opened Base
  import opened Text
  import opened Audit

  /** `LOWER(file_path) = LOWER(%s)`. */
  predicate SamePath(a: string, b: string) {
    Lower(a) == Lower(b)
  }

  /** A successful refresh of `path`. */
  predicate IsRefreshOk(e: Event, path: string) {
    SamePath(e.filePath, path) && e.stage == RefreshStage && e.status == "OK"
  }

  /**
   * `db_get_latest_refresh_date`: the greatest run date among successful
   * refreshes of `path`, or nothing when it was never refreshed.
   */
  function LatestRefreshDate(store: seq<Event>, path: string): (r: Option<Day>)
    ensures r.None? <==> !RefreshedEver(store, path)
    ensures r.Some? ==> exists i :: 0 <= i < |store| && IsRefreshOk(store[i], path) && store[i].runDate == r.value
    ensures r.Some? ==> forall i :: 0 <= i < |store| && IsRefreshOk(store[i], path) ==> store[i].runDate <= r.value
  {
    if |store| == 0 then None
    else
      var init := store[..|store| - 1];
      var e := store[|store| - 1];
      var prev := LatestRefreshDate(init, path);
      assert forall i :: 0 <= i < |init| ==> store[i] == init[i];
      if !IsRefreshOk(e, path) then prev
      else match prev
        case None => Some(e.runDate)
        case Some(d) => Some(if e.runDate > d then e.runDate else d)
  }

  /** `db_refresh_ok_for_date`: a successful refresh of `path` on exactly day `d`. */
  predicate RefreshOkOn(store: seq<Event>, path: string, d: Day) {
    exists i :: 0 <= i < |store| && IsRefreshOk(store[i], path) && store[i].runDate == d
  }

  /** `db_refresh_method_email_for_date`: as above, with `LOWER(COALESCE(method,'')) = 'email'`. */
  predicate RefreshMethodEmailOn(store: seq<Event>, path: string, d: Day) {
    exists i :: 0 <= i < |store| && IsRefreshOk(store[i], path) && store[i].runDate == d
                && Lower(store[i].methodTag) == "email"
  }

  /** Some successful refresh of `path` is on record. */
  predicate RefreshedEver(store: seq<Event>, path: string) {
    exists i :: 0 <= i < |store| && IsRefreshOk(store[i], path)
  }

  /** Day `d` is the latest refresh of `path`: there is a refresh on `d` and none on a later day. */
  predicate LatestIs(store: seq<Event>, path: string, d: Day) {
    && RefreshOkOn(store, path, d)
    && forall i :: 0 <= i < |store| && IsRefreshOk(store[i], path) ==> store[i].runDate <= d
  }

  /** `LOWER(REPLACE(p, '\\', '/'))`. */
  function PathKey(p: string): string {
    Lower(ReplaceChar(p, '\\', '/'))
  }

  /** The row filter of `db_already_emailed_ok`. */
  predicate IsEmailOkFor(e: Event, toNorm: string, subject: string, runDate: Day, batch: string, filePath: string) {
    && e.stage == EmailStage && e.status == "OK"
    && e.runDate == runDate
    && e.batch == batch
    && Lower(e.recipientsTo) == Lower(toNorm)
    && Lower(e.subject) == Lower(subject)
    && PathKey(e.filePath) == PathKey(filePath)
  }

  /**
   * `db_already_emailed_ok`: an OK email with the same recipients and subject
   * (ignoring case) on the same run date and batch, for the same file path.
   */
  predicate AlreadyEmailedOk(store: seq<Event>, toNorm: string, subject: string, runDate: Day, batch: string, filePath: string) {
    exists i :: 0 <= i < |store| && IsEmailOkFor(store[i], toNorm, subject, runDate, batch, filePath)
  }

  /**
   * The latest refresh is on day `d` exactly when there is a refresh on `d` and
   * none later: a refresh on a later day makes `d` stale.
   */
  lemma LatestIsDay(store: seq<Event>, path: string, d: Day)
    ensures LatestRefreshDate(store, path) == Some(d) <==> LatestIs(store, path, d)
  {
    if LatestIs(store, path, d) {
      LatestOfBound(store, path, d);
    }
  }

  /** A refresh on `d` with none later makes `d` the latest date. */
  lemma {:induction false} LatestOfBound(store: seq<Event>, path: string, d: Day)
    requires RefreshOkOn(store, path, d)
    requires forall i :: 0 <= i < |store| && IsRefreshOk(store[i], path) ==> store[i].runDate <= d
    ensures LatestRefreshDate(store, path) == Some(d)
  {
    var k :| 0 <= k < |store| && IsRefreshOk(store[k], path) && store[k].runDate == d;
    var init := store[..|store| - 1];
    var e := store[|store| - 1];
    var prev := LatestRefreshDate(init, path);
    assert IsRefreshOk(e, path) ==> e.runDate <= d;
    if prev.Some? {
      var m := LatestWitnessOf(init, path);
      assert init[m] == store[m];
    }
    if k == |store| - 1 {
      assert prev.None? || prev.value <= d;
    } else {
      assert init[k] == store[k];
      forall i | 0 <= i < |init| && IsRefreshOk(init[i], path) ensures init[i].runDate <= d {
        assert init[i] == store[i];
      }
      LatestOfBound(init, path, d);
    }
  }

  /** The position of a refresh on the latest date. */
  ghost function LatestWitnessOf(store: seq<Event>, path: string): (m: nat)
    requires LatestRefreshDate(store, path).Some?
    ensures m < |store| && IsRefreshOk(store[m], path) && store[m].runDate == LatestRefreshDate(store, path).value
  {
    var m :| 0 <= m < |store| && IsRefreshOk(store[m], path) && store[m].runDate == LatestRefreshDate(store, path).value;
    m
  }

  /** Appending rows of another stage does not move the latest refresh date. */
  lemma AppendNonRefresh(store: seq<Event>, more: seq<Event>, path: string)
    requires forall i :: 0 <= i < |more| ==> more[i].stage != RefreshStage
    ensures LatestRefreshDate(store + more, path) == LatestRefreshDate(store, path)
  {
    var all := store + more;
    match LatestRefreshDate(store, path)
    case None =>
      forall m | 0 <= m < |all| ensures !IsRefreshOk(all[m], path) {
        if IsRefreshOk(all[m], path) {
          RefreshRowIsOld(store, more, path, m);
        }
      }
    case Some(d) =>
      var k :| 0 <= k < |store| && IsRefreshOk(store[k], path) && store[k].runDate == d;
      assert all[k] == store[k];
      forall m | 0 <= m < |all| && IsRefreshOk(all[m], path) ensures all[m].runDate <= d {
        RefreshRowIsOld(store, more, path, m);
      }
      LatestIsDay(all, path, d);
  }

  /** In `store + more`, with no Refresh row in `more`, every successful refresh lies in `store`. */
  lemma RefreshRowIsOld(store: seq<Event>, more: seq<Event>, path: string, m: nat)
    requires forall i :: 0 <= i < |more| ==> more[i].stage != RefreshStage
    requires m < |store + more|
    ensures IsRefreshOk((store + more)[m], path) ==> m < |store| && (store + more)[m] == store[m]
  {
    if m >= |store| {
      assert (store + more)[m] == more[m - |store|];
    }
  }

  lemma AppendNonRefreshMethod(store: seq<Event>, more: seq<Event>, path: string, d: Day)
    requires forall i :: 0 <= i < |more| ==> more[i].stage != RefreshStage
    ensures RefreshMethodEmailOn(store + more, path, d) <==> RefreshMethodEmailOn(store, path, d)
  {
    var all := store + more;
    if RefreshMethodEmailOn(all, path, d) {
      var i :| 0 <= i < |all| && IsRefreshOk(all[i], path) && all[i].runDate == d
               && Lower(all[i].methodTag) == "email";
      assert all[i] == store[i];
    }
    if RefreshMethodEmailOn(store, path, d) {
      var i :| 0 <= i < |store| && IsRefreshOk(store[i], path) && store[i].runDate == d
               && Lower(store[i].methodTag) == "email";
      assert all[i] == store[i];
    }
  }
}

=== FILE: text.dfy ===
/**
 * The small string toolkit the scripts lean on: Python's `str.strip`, `str.split`
 * on one separator character, `sep.join`, `str.replace` of one character,
 * `str.lower`/`str.upper` and decimal rendering/parsing of integers.
 *
 * Whitespace is Python's full `isspace` set; case mapping is ASCII only, as stated
 * under "Left out" in the README.
 */
module Text {
  import opened Base

  /** Python's `str.isspace` for one character: the characters `strip` removes. */
  predicate IsSpace(c: char) {
    || c == ' ' || ('\t' <= c <= '\r') || ('\U{001C}' <= c <= '\U{001F}')
    || c == '\U{0085}' || c == '\U{00A0}' || c == '\U{1680}'
    || ('\U{2000}' <= c <= '\U{200A}') || c == '\U{2028}' || c == '\U{2029}'
    || c == '\U{202F}' || c == '\U{205F}' || c == '\U{3000}'
  }

  predicate AllSpace(s: string) {
    forall i :: 0 <= i < |s| ==> IsSpace(s[i])
  }

  /** A string with no whitespace at either end, as `strip` leaves it. */
  predicate Trimmed(s: string) {
    s == "" || (!IsSpace(s[0]) && !IsSpace(s[|s| - 1]))
  }

  function TrimLeft(s: string): string
  {
    if |s| > 0 && IsSpace(s[0]) then TrimLeft(s[1..]) else s
  }

  function TrimRight(s: string): string
  {
    if |s| > 0 && IsSpace(s[|s| - 1]) then TrimRight(s[..|s| - 1]) else s
  }

  lemma {:induction false} TrimLeftSpec(s: string)
    ensures var r := TrimLeft(s);
      |r| <= |s| && r == s[|s| - |r|..] && AllSpace(s[..|s| - |r|]) && (r == "" || !IsSpace(r[0]))
  {
    if |s| > 0 && IsSpace(s[0]) {
      TrimLeftSpec(s[1..]);
    }
  }

  lemma {:induction false} TrimRightSpec(s: string)
    ensures var r := TrimRight(s);
      |r| <= |s| && r == s[..|r|] && AllSpace(s[|r|..]) && (r == "" || !IsSpace(r[|r| - 1]))
  {
    if |s| > 0 && IsSpace(s[|s| - 1]) {
      TrimRightSpec(s[..|s| - 1]);
      var r := TrimRight(s);
      assert s[|r|..] == s[..|s| - 1][|r|..] + [s[|s| - 1]];
    }
  }

  /** Python's `s.strip()`. */
  function Trim(s: string): (r: string)
    ensures Trimmed(r)
  {
    TrimLeftSpec(s);
    TrimRightSpec(TrimLeft(s));
    TrimRight(TrimLeft(s))
  }

  /**
   * `strip` removes exactly a whitespace prefix and a whitespace suffix and
   * leaves a string that starts and ends with a non-space character.
   */
  lemma TrimSpec(s: string)
    ensures Trimmed(Trim(s))
    ensures exists i, j :: 0 <= i <= j <= |s| && Trim(s) == s[i..j]
                           && AllSpace(s[..i]) && AllSpace(s[j..])
  {
    TrimLeftSpec(s);
    TrimRightSpec(TrimLeft(s));
    var l := TrimLeft(s);
    var r := TrimRight(l);
    var i := |s| - |l|;
    var j := i + |r|;
    assert r == s[i..j];
    assert s[j..] == l[|r|..];
    if r != "" {
      assert r[0] == l[0];
    }
  }

  /** Every character of `strip`'s result comes from its input. */
  lemma TrimSubset(s: string, c: char)
    requires c !in s
    ensures c !in Trim(s)
  {
    TrimSpec(s);
  }

  /** `strip` leaves an already stripped string alone. */
  lemma TrimTrimmed(s: string)
    requires Trimmed(s)
    ensures Trim(s) == s
  {
  }

  /** Leading whitespace never survives `strip`. */
  lemma {:induction false} TrimSpacePrefix(pad: string, s: string)
    requires AllSpace(pad)
    ensures Trim(pad + s) == Trim(s)
  {
    TrimLeftSpacePrefix(pad, s);
  }

  lemma {:induction false} TrimLeftSpacePrefix(pad: string, s: string)
    requires AllSpace(pad)
    ensures TrimLeft(pad + s) == TrimLeft(s)
  {
    if pad != [] {
      var t := pad + s;
      assert t[0] == pad[0];
      assert IsSpace(t[0]);
      assert t[1..] == pad[1..] + s;
      assert TrimLeft(t) == TrimLeft(t[1..]);
      TrimLeftSpacePrefix(pad[1..], s);
    } else {
      assert pad + s == s;
    }
  }

  /** Python's `s.split(sep)` for a one-character separator: `k` separators give `k + 1` fields. */
  function Split(s: string, sep: char): (r: seq<string>)
    ensures |r| >= 1
    ensures forall i :: 0 <= i < |r| ==> sep !in r[i]
    decreases |s|
  {
    if |s| == 0 then [""]
    else
      var rest := Split(s[1..], sep);
      if s[0] == sep then [""] + rest
      else [[s[0]] + rest[0]] + rest[1..]
  }

  /** Python's `sep.join(parts)`. */
  function Join(parts: seq<string>, sep: string): string
  {
    if |parts| == 0 then ""
    else if |parts| == 1 then parts[0]
    else parts[0] + sep + Join(parts[1..], sep)
  }

  /** A text with no separator is a single field. */
  lemma {:induction false} SplitNoSep(s: string, sep: char)
    requires sep !in s
    ensures Split(s, sep) == [s]
  {
    if |s| > 0 {
      SplitNoSep(s[1..], sep);
      assert s == [s[0]] + s[1..];
    }
  }

  /** Splitting distributes over a separator occurrence. */
  lemma {:induction false} SplitConcat(a: string, sep: char, b: string)
    ensures Split(a + [sep] + b, sep) == Split(a, sep) + Split(b, sep)
  {
    if |a| == 0 {
      assert a + [sep] + b == [sep] + b;
      assert ([sep] + b)[1..] == b;
    } else {
      assert (a + [sep] + b)[1..] == a[1..] + [sep] + b;
      SplitConcat(a[1..], sep, b);
    }
  }

  /** Joining the fields of a split restores the text. */
  lemma {:induction false} JoinSplit(s: string, sep: char)
    ensures Join(Split(s, sep), [sep]) == s
    decreases |s|
  {
    if |s| > 0 {
      JoinSplit(s[1..], sep);
      var rest := Split(s[1..], sep);
      if s[0] != sep {
        if |rest| > 1 {
          assert Join(rest, [sep]) == rest[0] + [sep] + Join(rest[1..], [sep]);
          assert s == [s[0]] + s[1..];
        }
      } else {
        assert s == [sep] + s[1..];
      }
    }
  }

  /** Splitting a join of separator-free fields gives back the fields. */
  lemma {:induction false} SplitJoin(parts: seq<string>, sep: char)
    requires |parts| >= 1
    requires forall i :: 0 <= i < |parts| ==> sep !in parts[i]
    ensures Split(Join(parts, [sep]), sep) == parts
  {
    SplitNoSep(parts[0], sep);
    if |parts| > 1 {
      SplitJoin(parts[1..], sep);
      SplitConcat(parts[0], sep, Join(parts[1..], [sep]));
    }
  }

  /** A separator-free prefix glues onto the first field. */
  lemma {:induction false} SplitPrefix(pre: string, s: string, sep: char)
    requires sep !in pre
    ensures Split(pre + s, sep) == [pre + Split(s, sep)[0]] + Split(s, sep)[1..]
  {
    if |pre| == 0 {
      assert pre + s == s;
      var r := Split(s, sep);
      assert pre + r[0] == r[0];
      assert [r[0]] + r[1..] == r;
    } else {
      assert (pre + s)[1..] == pre[1..] + s;
      SplitPrefix(pre[1..], s, sep);
      assert [pre[0]] + (pre[1..] + Split(s, sep)[0]) == pre + Split(s, sep)[0];
    }
  }

  /** A character absent from the text is absent from every field. */
  lemma {:induction false} SplitKeepsAbsent(s: string, sep: char, c: char)
    requires c !in s
    ensures forall i :: 0 <= i < |Split(s, sep)| ==> c !in Split(s, sep)[i]
    decreases |s|
  {
    if |s| > 0 {
      SplitKeepsAbsent(s[1..], sep, c);
    }
  }

  /** A joined text starts with its first field and ends with its last. */
  lemma {:induction false} JoinEnds(parts: seq<string>, sep: string)
    requires |parts| >= 1
    requires forall i :: 0 <= i < |parts| ==> parts[i] != ""
    ensures var j := Join(parts, sep); |j| > 0 && j[0] == parts[0][0]
                                        && j[|j| - 1] == parts[|parts| - 1][|parts[|parts| - 1]| - 1]
  {
    var j := Join(parts, sep);
    if |parts| > 1 {
      var t := Join(parts[1..], sep);
      assert j == parts[0] + sep + t;
      JoinEnds(parts[1..], sep);
      assert parts[1..][|parts| - 2] == parts[|parts| - 1];
      assert j[|j| - 1] == t[|t| - 1];
    } else {
      assert j == parts[0];
    }
  }

  /** Joining two or more parts yields text longer than the last part plus one separator. */
  lemma {:induction false} JoinLongerThanLast(parts: seq<string>, sep: string)
    requires |parts| >= 2
    ensures |Join(parts, sep)| >= |parts[|parts| - 1]| + |sep|
  {
    if |parts| == 2 {
      assert Join(parts[1..], sep) == parts[1];
    } else {
      JoinLongerThanLast(parts[1..], sep);
    }
  }

  /** Python's `s.replace(a, b)` for single characters. */
  function ReplaceChar(s: string, a: char, b: char): (r: string)
    ensures |r| == |s|
    ensures forall i :: 0 <= i < |s| ==> r[i] == (if s[i] == a then b else s[i])
  {
    if |s| == 0 then "" else [if s[0] == a then b else s[0]] + ReplaceChar(s[1..], a, b)
  }

  lemma ReplaceConcat(x: string, y: string, a: char, b: char)
    ensures ReplaceChar(x + y, a, b) == ReplaceChar(x, a, b) + ReplaceChar(y, a, b)
  {
    var l := ReplaceChar(x + y, a, b);
    var r := ReplaceChar(x, a, b) + ReplaceChar(y, a, b);
    assert forall i :: 0 <= i < |l| ==> l[i] == r[i];
  }

  lemma ReplaceAbsent(x: string, a: char, b: char)
    requires a !in x
    ensures ReplaceChar(x, a, b) == x
  {
    assert forall i :: 0 <= i < |x| ==> ReplaceChar(x, a, b)[i] == x[i];
  }

  /** Replacing a character that no field contains only rewrites the separators. */
  lemma {:induction false} ReplaceJoin(parts: seq<string>, sep: string, a: char, b: char)
    requires forall i :: 0 <= i < |parts| ==> a !in parts[i]
    ensures ReplaceChar(Join(parts, sep), a, b) == Join(parts, ReplaceChar(sep, a, b))
  {
    if |parts| == 1 {
      ReplaceAbsent(parts[0], a, b);
    } else if |parts| > 1 {
      ReplaceJoin(parts[1..], sep, a, b);
      ReplaceAbsent(parts[0], a, b);
      ReplaceConcat(parts[0] + sep, Join(parts[1..], sep), a, b);
      ReplaceConcat(parts[0], sep, a, b);
    }
  }

  function LowerChar(c: char): char {
    if 'A' <= c <= 'Z' then (c as int + 32) as char else c
  }

  function UpperChar(c: char): char {
    if 'a' <= c <= 'z' then (c as int - 32) as char else c
  }

  /** `str.lower` (and `casefold`), ASCII letters only. */
  function Lower(s: string): (r: string)
    ensures |r| == |s|
    ensures forall i :: 0 <= i < |s| ==> r[i] == LowerChar(s[i])
  {
    if |s| == 0 then "" else [LowerChar(s[0])] + Lower(s[1..])
  }

  lemma {:induction false} LowerTrimLeft(s: string)
    ensures Lower(TrimLeft(s)) == TrimLeft(Lower(s))
  {
    if |s| > 0 {
      assert Lower(s)[1..] == Lower(s[1..]);
      LowerTrimLeft(s[1..]);
    }
  }

  lemma {:induction false} LowerTrimRight(s: string)
    ensures Lower(TrimRight(s)) == TrimRight(Lower(s))
  {
    if |s| > 0 {
      assert Lower(s)[..|s| - 1] == Lower(s[..|s| - 1]);
      LowerTrimRight(s[..|s| - 1]);
    }
  }

  /** Case mapping never touches whitespace, so it commutes with `strip`. */
  lemma LowerTrimCommutes(s: string)
    ensures Lower(Trim(s)) == Trim(Lower(s))
  {
    LowerTrimLeft(s);
    LowerTrimRight(TrimLeft(s));
  }

  /** `str.upper`, ASCII letters only. */
  function Upper(s: string): (r: string)
    ensures |r| == |s|
    ensures forall i :: 0 <= i < |s| ==> r[i] == UpperChar(s[i])
  {
    if |s| == 0 then "" else [UpperChar(s[0])] + Upper(s[1..])
  }

  predicate IsDigit(c: char) {
    '0' <= c <= '9'
  }

  function DigitChar(d: nat): char
    requires d < 10
  {
    ('0' as int + d) as char
  }

  /** Decimal rendering of a natural number, most significant digit first, no leading zeros. */
  function NatText(n: nat): (r: string)
    ensures |r| >= 1
    ensures forall i :: 0 <= i < |r| ==> IsDigit(r[i])
    ensures |r| > 1 ==> r[0] != '0'
  {
    if n < 10 then [DigitChar(n)] else NatText(n / 10) + [DigitChar(n % 10)]
  }

  /** Python's `str(n)` for an int. */
  function IntText(n: int): string {
    if n < 0 then "-" + NatText(-n) else NatText(n)
  }

  function DigitsValue(ds: string): nat
    requires forall i :: 0 <= i < |ds| ==> IsDigit(ds[i])
  {
    if |ds| == 0 then 0
    else
      var last := ds[|ds| - 1];
      assert IsDigit(last);
      10 * DigitsValue(ds[..|ds| - 1]) + (last as int - '0' as int)
  }

  predicate AllDigits(s: string) {
    forall i :: 0 <= i < |s| ==> IsDigit(s[i])
  }

  /**
   * Python's `int(s)` on an already stripped string: an optional sign followed by
   * at least one decimal digit; anything else raises, modelled as `None`.
   */
  function ParseInt(s: string): Option<int>
  {
    if |s| > 0 && (s[0] == '+' || s[0] == '-') then
      var ds := s[1..];
      if |ds| > 0 && AllDigits(ds) then
        var v: int := DigitsValue(ds);
        Some(if s[0] == '-' then -v else v)
      else None
    else if |s| > 0 && AllDigits(s) then Some(DigitsValue(s))
    else None
  }

  lemma {:induction false} DigitsValueNatText(n: nat)
    ensures DigitsValue(NatText(n)) == n
  {
    if n >= 10 {
      DigitsValueNatText(n / 10);
      var t := NatText(n);
      assert t[..|t| - 1] == NatText(n / 10);
    }
  }

  /** `int(str(n)) == n`: parsing inverts rendering. */
  lemma ParseIntText(n: int)
    ensures ParseInt(IntText(n)) == Some(n)
  {
    if n < 0 {
      var t := NatText(-n);
      var s := IntText(n);
      assert s == "-" + t && s[0] == '-' && s[1..] == t;
      assert AllDigits(t);
      DigitsValueNatText(-n);
    } else {
      var t := NatText(n);
      assert IntText(n) == t;
      assert AllDigits(t) && IsDigit(t[0]);
      DigitsValueNatText(n);
    }
  }
}
